=== FILE: README.md ===
# 2merkato directory scraper — a Dafny model

`merkato.py` crawls the 2merkato business directory in three levels:

- the directory page lists categories;
- each category page lists subcategories;
- each subcategory is a paginated list of businesses.

For every business it also reads a details table. `scrape_to_csv` flattens the tree into one CSV row per business.

This project models that core as pure functions over an abstract web site. A `Site` is a map from URL to a parsed `Page`. A URL missing from the map stands for a failed request, which is `requests.exceptions.RequestException` in the code. A `Page` holds exactly the structures the scraper queries:

- the `mtree_category` blocks;
- the `mtree_sub_category` box and its `pad10` list;
- the `listings` div with its `span12 heading` entries;
- the `Next` anchor;
- the `table-condensed` rows.

The model is split into modules:

- `Strings`: Python's `str.strip()` as used by `get_text(strip=True)`, and the slice `[1:-1]`.
- `Pages`: the page model, `DOMAIN` and URL joining.
- `DirectoryPage`: `get_categories`.
- `CategoryPage`: `get_subcategories`.
- `ListingPages`: `get_businesses`, including pagination.
- `DetailPage`: `get_business_details`, with a dict that keeps insertion order.
- `Export`: the row table `scrape_to_csv` writes.

The listing, detail and export modules also work small example sites and tables through end to end.

Behaviour of the code worth noting:

- The count of a category or subcategory stays the sliced text, e.g. `"(42)"` becomes `"42"`. It is not converted to an integer.
- The directory page yields one record per `(anchor, count span)` pair in every block, with zips truncated to the shorter list. "One record per block" holds exactly when every block has `min(#anchors, #count spans) == 1`; `DirectoryPage.OneRecordPerBlock` proves it for one anchor and one count per block.
- The code has no depth flags and builds no nested tree. Subcategories and businesses are fetched only by `scrape_to_csv`.
- A failed request on any page of a pagination walk empties the whole subcategory. Businesses already collected from earlier pages are thrown away (`ListingPages.FailureDiscardsAll`).

## Model

| member | source | states |
|---|---|---|
| Strings.StripShape | merkato.py:65 | `str.strip()`, which `get_text(strip=True)` applies to each text fragment, yields a text that neither starts nor ends with Python whitespace. The fragment is that text with an all-whitespace prefix and suffix added back. |
| Strings.StripUnique | merkato.py:65 | Stripping `lead + core + trail` gives back exactly `core` whenever `lead` and `trail` are whitespace and `core` is already trimmed. |
| Strings.StripIdempotent | merkato.py:65 | Stripping a stripped text changes nothing. |
| Strings.UnbracketShape | merkato.py:67 | The slice `[1:-1]` drops the first and last character: its length is `max(0, n-2)` and its i-th character is input character `i+1`. Inputs of length 2 or less give the empty text, as in Python. |
| Strings.UnbracketWrapped | merkato.py:67 | A count rendered as one opening character, a body and one closing character slices back to exactly the body. |
| Strings.UnbracketExample | merkato.py:67 | `"(42)"` slices to `"42"`. |
| Pages.Text | merkato.py:65 | `get_text(strip=True)` never starts or ends with whitespace, however many fragments the element holds. |
| Pages.JoinStrippedAppend | merkato.py:65 | The text of two runs of fragments is the text of the first run followed by that of the second, with no separator. |
| Pages.TextSingle | merkato.py:65 | An element with a single fragment has that fragment, stripped, as its text. |
| Pages.RelativeAbsolute | merkato.py:35 | Every joined URL starts with `DOMAIN`, and removing the domain gives back the original relative href. |
| Pages.AbsoluteInjective | merkato.py:66 | Two different hrefs never join to the same URL. |
| DirectoryPage.Zip | merkato.py:63-69 | Zipping anchors with count spans gives `min` of the two lengths. The i-th record takes its name and href from anchor i and its count from span i. |
| DirectoryPage.Categories | merkato.py:47-77 | A failed request gives `[]`. Otherwise there is one record per zipped pair over all blocks, counted block by block with the shorter of anchors and count spans. |
| DirectoryPage.CategoryAt | merkato.py:59-71 | The i-th pair of block k sits at position (pairs in blocks before k) + i of the result, so block order and order within a block are both preserved. |
| DirectoryPage.FromBlocksAppend | merkato.py:59-71 | Extracting from two runs of blocks is the concatenation of extracting from each. |
| DirectoryPage.CategoryHrefs | merkato.py:66 | Every category href starts with `DOMAIN`. |
| DirectoryPage.OneRecordPerBlock | merkato.py:59-71 | When every block has exactly one anchor and one count, there is exactly one record per block, in block order. |
| DirectoryPage.AppendBlock | merkato.py:63-71 | The inner loop appends, after the records so far, one record per zipped (anchor, count span) pair of the block, in order. |
| DirectoryPage.ExtractCategories | merkato.py:58-73 | The nested append loop builds exactly the list the functional definition describes. |
| CategoryPage.Subcategories | merkato.py:90-122 | A failed request, a missing box or a missing `pad10` list each give `[]`. Otherwise there is one record per `li`. |
| CategoryPage.ItemShells | merkato.py:105-116 | The loop over `li` items gives one record per item, the i-th built from the i-th item's anchor and count span. |
| CategoryPage.OneRecordPerItem | merkato.py:105-116 | Record i is built from item i: its stripped anchor text, its href joined to the domain (removing the domain gives the item's own href back), and its sliced count. |
| CategoryPage.SubcategoryHrefs | merkato.py:111 | Every subcategory href starts with `DOMAIN`. |
| ListingPages.PageBusinesses | merkato.py:150-163 | A page yields at most one business per heading. |
| ListingPages.PageBusinessesMembers | merkato.py:150-163 | A business appears exactly when some heading has an `h4` anchor with that name and joined href; headings without an `h4` are skipped. |
| ListingPages.PageBusinessesAppend | merkato.py:150-163 | Reading two runs of headings one after the other gives the first run's businesses followed by the second run's. |
| ListingPages.Businesses | merkato.py:135-178 | Stated against the list of URLs the loop requests (`Visits`). When the last request fails, the result is `[]` whatever earlier pages held. When every request succeeds and the walk ends within the bound, the result is the businesses of the visited pages, page after page. The result is absent only after `maxPages` successfully fetched pages. |
| ListingPages.Visits | merkato.py:139-172 | The walk fetches at most the bounded number of pages, and every page it reaches is one it can read. |
| ListingPages.WalkIsConcatenation | merkato.py:139-174 | A walk fails exactly when its last visited URL cannot be fetched. A completed walk fetched every visited URL and returns the per-page businesses concatenated in visiting order. |
| ListingPages.FailureDiscardsAll | merkato.py:176-178 | If the last fetch of a walk fails, everything collected earlier is discarded and the result is `[]`. |
| ListingPages.DivergedVisits | merkato.py:139-170 | A walk that hits the bound has visited exactly that many pages, every one fetched. |
| ListingPages.DivergedRevisits | merkato.py:139-170 | When the bound exceeds the number of pages of the site, a walk that hits it has visited some page twice. The loop state is only the current URL, so the code would loop forever on it. |
| ListingPages.MoreRoomSameOutcome | merkato.py:139 | A walk that finishes within some page bound gives the same outcome under any larger bound, and the larger bound needs no further readable pages. A walk cut off under a bound larger than the number of pages of the site does not terminate in the code (`DivergedRevisits`). |
| ListingPages.BusinessHrefs | merkato.py:154 | Every business href of a completed walk starts with `DOMAIN`. |
| ListingPages.CollectPage | merkato.py:150-163 | The inner loop appends exactly the page's businesses to the list built so far. |
| ListingPages.GetBusinesses | merkato.py:135-174 | The imperative pagination loop finishes within the bound exactly when the functional walk does, and then returns the same list. |
| ListingPages.ThreePages | merkato.py:139-172 | On any three-page subcategory with distinct page URLs, where the middle page has a heading without `h4`, the five headed businesses come back in page order. |
| DetailPage.Put | merkato.py:207 | Assigning into the details dict keeps keys unique and adds exactly the new key. |
| DetailPage.PutExisting | merkato.py:207 | Assigning to a key already present changes no key and no key's position, as Python dicts keep insertion order. |
| DetailPage.PutNew | merkato.py:207 | Assigning to a new key appends the entry after all existing ones. |
| DetailPage.PutLookup | merkato.py:207 | After an assignment the key maps to the new value and every other key keeps its old value. |
| DetailPage.FromRows | merkato.py:201-207 | The loop over the table rows builds a dict with no repeated key. |
| DetailPage.FromRowsKeys | merkato.py:201-207 | The dict's keys are exactly the stripped first cells of the two-cell rows. Rows of any other width contribute nothing. |
| DetailPage.FromRowsLookup | merkato.py:201-207 | For a repeated key, the value kept is that of the last two-cell row carrying the key. |
| DetailPage.Details | merkato.py:190-213 | A failed request or a missing table gives `{}`. Otherwise the keys are unique and are exactly those of the two-cell rows. |
| DetailPage.PhoneExample | merkato.py:201-207 | A table with a one-cell row between two "Phone" rows ignores the short row and keeps only the second phone number. |
| Export.BusinessRows | merkato.py:239-248 | There is one row per business, in order, carrying the business name, the subcategory name, the category name and the rendered details. |
| Export.SubcategoryRowsDefined | merkato.py:234-248 | Rows for a category exist exactly when every subcategory walk stays within the page bound. |
| Export.Export | merkato.py:224-248 | The table is the header followed by one row of four cells per business found. An unreadable directory page gives only the header. |
| Export.ExportContents | merkato.py:224-248 | A row is in the table exactly when it describes a business found under some subcategory of some category, with that business's rendered details. |
| Export.SubcategoryRowsCount | merkato.py:234-248 | The number of rows for a category is the total number of businesses found under its subcategories. |
| Export.CategoryRowsCount | merkato.py:230-248 | The number of rows for all categories is the total number of businesses found in the whole crawl. |
| Export.SubcategoryRowsAppend | merkato.py:234 | The rows for two runs of subcategories are the rows of the first run followed by those of the second. |
| Export.CategoryRowsAppend | merkato.py:230 | The rows for two runs of categories are the rows of the first run followed by those of the second. |
| Export.EmptySubcategoryNoRows | merkato.py:237-239 | A subcategory with no businesses contributes no rows, as if it were absent. |
| Export.FailedSubcategoryTolerated | merkato.py:176-178 | A subcategory whose walk hits a failed request contributes no rows, and the crawl goes on with the next subcategory. |
| Export.OneBusinessOneRow | merkato.py:224-248 | One category whose first subcategory holds one business and whose second holds none gives the header and exactly that business's row, named after its subcategory and category. |
| Export.OneCategoryTwoSubcategories | merkato.py:224-248 | On any site with one category block, two subcategories, one listed business and distinct URLs, the table is the header plus one row. The business page cannot be fetched. The row carries the stripped names and the rendering of the empty details dict. |

## Left out

- HTTP: headers, status checks and timeouts are left out. A request either yields a parsed page or fails, which is a URL absent from the `Site` map. The site is fixed, so the same URL always gives the same answer.
- HTML parsing with BeautifulSoup and UTF-8 decoding with replacement are left out. A `Page` records only the parsed structures the code queries. `get_text(strip=True)` is the concatenation of a node's text fragments, each stripped of surrounding whitespace first.
- Only `RequestException` is caught by the code. Accessing a missing anchor, count span or `href` raises and ends the program. The model states the absence of such crashes as preconditions (`BlockOk`, `ItemsOk`, `ListingPageOk`, `WalkOk`, `ExportOk`) about the pages actually visited.
- ListingPages.Businesses: pagination is bounded by a page budget `maxPages`. `None` means the walk would fetch more than `maxPages` pages; the code has no such bound and keeps going. `MoreRoomSameOutcome` shows a larger budget changes nothing for walks that end. Once `maxPages` exceeds the number of pages of the site, `None` means the walk revisits a page (`DivergedRevisits`), where the code loops forever.
- Export.ExportOk: it asks for every walk to be readable, including walks after one that hits the bound. With a budget smaller than some walk, `Export` is `None` although the code completes that crawl. With a budget above the number of pages of the site, a walk that hits it revisits a page, so the code loops forever there and never reaches the later walks.
- `str(business_details)`, Python's dict repr, is left out. It is a parameter `render` of the export.
- CSV writing and `convert_csv_to_excel` (pandas) are left out. The model produces the table of cells that would be written.
- `print` progress lines and `logging.error` calls are left out, because they do not affect the result.
- The call `get_business_details` at line 156 inside `get_businesses` is left out. Its result is discarded, and since the site is fixed it has no effect on the result.
- Python's `None` for the next URL is modelled as the empty string. The loop tests `while business_url`, and that test treats both the same way.

=== FILE: category_page.dfy ===
/** `get_subcategories`: one record per `li` of the subcategory list of a
    category page; a missing container, a missing list or a failed fetch
    gives no records at all. */
module CategoryPage {
  import opened Wrappers
  import opened Pages

  /** The `li` items the scraper walks: those of the `ul.pad10` inside the
      subcategory container, or none when either is missing. */
  function Items(page: Page): seq<ListItem>
  {
    match page.subcategoryBox
    case None => []
    case Some(box) =>
      match box.list
      case None => []
      case Some(items) => items
  }

  /** Each `li` has an `a` with an `href` and a count badge (otherwise the
      scraper stops with an uncaught error). */
  predicate ItemOk(item: ListItem) {
    item.link.Some? && item.link.value.href.Some? && item.badge.Some?
  }

  predicate ItemsOk(items: seq<ListItem>) {
    forall i :: 0 <= i < |items| ==> ItemOk(items[i])
  }

  /** A category page the scraper can read without crashing; a page that
      cannot be fetched is never read. */
  predicate CategoryPageOk(site: Site, url: string) {
    url in site ==> ItemsOk(Items(site[url]))
  }

  /** One record per item, the i-th built from the i-th item's link and
      badge. */
  function ItemShells(items: seq<ListItem>): (r: seq<Shell>)
    requires ItemsOk(items)
    ensures |r| == |items|
    ensures forall i :: 0 <= i < |r| ==>
      r[i] == ShellOf(items[i].link.value, items[i].badge.value)
  {
    if |items| == 0 then []
    else [ShellOf(items[0].link.value, items[0].badge.value)] + ItemShells(items[1..])
  }

  /** `get_subcategories(url)`. Missing structure is not an error: without
      the page, the container or the list the result is empty; otherwise
      there is one record per item. */
  function Subcategories(site: Site, url: string): (r: seq<Shell>)
    requires CategoryPageOk(site, url)
    ensures url !in site ==> r == []
    ensures url in site && site[url].subcategoryBox.None? ==> r == []
    ensures url in site && site[url].subcategoryBox.Some? && site[url].subcategoryBox.value.list.None?
      ==> r == []
    ensures url in site ==> |r| == |Items(site[url])|
  {
    match Fetch(site, url)
    case None => []
    case Some(page) => ItemShells(Items(page))
  }

  /** When the list is there: exactly one record per item, in order, each
      with an absolute link made from the item's own `href`. */
  lemma OneRecordPerItem(site: Site, url: string)
    requires CategoryPageOk(site, url)
    requires url in site && site[url].subcategoryBox.Some? && site[url].subcategoryBox.value.list.Some?
    ensures var items := site[url].subcategoryBox.value.list.value;
      && |Subcategories(site, url)| == |items|
      && forall i :: 0 <= i < |items| ==>
           && Subcategories(site, url)[i] == ShellOf(items[i].link.value, items[i].badge.value)
           && Relative(Subcategories(site, url)[i].href) == items[i].link.value.href
  {
    var items := site[url].subcategoryBox.value.list.value;
    forall i | 0 <= i < |items|
      ensures Relative(Subcategories(site, url)[i].href) == items[i].link.value.href
    {
      ShellFields(items[i].link.value, items[i].badge.value);
    }
  }

  /** Every subcategory link is absolute. */
  lemma SubcategoryHrefs(site: Site, url: string)
    requires CategoryPageOk(site, url)
    ensures forall i :: 0 <= i < |Subcategories(site, url)| ==> IsAbsolute(Subcategories(site, url)[i].href)
  {
    if url in site {
      var items := Items(site[url]);
      forall i | 0 <= i < |items| ensures IsAbsolute(Subcategories(site, url)[i].href) {
        ShellFields(items[i].link.value, items[i].badge.value);
      }
    }
  }
}

=== FILE: detail_page.dfy ===
/** `get_business_details`: the key/value rows of a business page's
    condensed attribute table, gathered into a Python dict. Only rows with
    exactly two cells count; a later row with a key already present
    overwrites the value and keeps the key where it first appeared (dict
    insertion order, which `str(dict)` shows). */
module DetailPage {
  import opened Wrappers
  import opened Pages

  /** A Python dict of strings: its entries in insertion order. */
  type Dict = seq<(string, string)>

  predicate UniqueKeys(d: Dict) {
    forall i, j :: 0 <= i < j < |d| ==> d[i].0 != d[j].0
  }

  function Keys(d: Dict): set<string> {
    set i | 0 <= i < |d| :: d[i].0
  }

  /** `d.get(k)`. */
  function Lookup(d: Dict, k: string): Option<string>
  {
    if |d| == 0 then None
    else if d[0].0 == k then Some(d[0].1)
    else Lookup(d[1..], k)
  }

  lemma {:induction false} LookupKeys(d: Dict, k: string)
    ensures Lookup(d, k).Some? <==> k in Keys(d)
  {
    if |d| > 0 {
      LookupKeys(d[1..], k);
      LookupKeysSplit(d);
    }
  }

  /** `d[k] = v`: the keys are those of d plus k, still without
      duplicates. */
  function Put(d: Dict, k: string, v: string): (r: Dict)
    requires UniqueKeys(d)
    ensures UniqueKeys(r)
    ensures Keys(r) == Keys(d) + {k}
  {
    if |d| == 0 then
      var r := [(k, v)];
      assert r[0].0 == k;
      r
    else
      SplitFirst(d);
      if d[0].0 == k then
        ConsUnique((k, v), d[1..]);
        [(k, v)] + d[1..]
      else
        var rest := Put(d[1..], k, v);
        ConsUnique(d[0], rest);
        [d[0]] + rest
  }

  /** A dict without duplicates is its first entry, whose key is not
      repeated, followed by a dict without duplicates. */
  lemma SplitFirst(d: Dict)
    requires UniqueKeys(d) && |d| > 0
    ensures UniqueKeys(d[1..]) && d[0].0 !in Keys(d[1..])
    ensures Keys(d) == {d[0].0} + Keys(d[1..])
  {
    LookupKeysSplit(d);
    assert forall i :: 0 <= i < |d| - 1 ==> d[1..][i] == d[i + 1];
  }

  /** Putting an entry with a new key in front keeps keys unique. */
  lemma ConsUnique(e: (string, string), d: Dict)
    requires UniqueKeys(d) && e.0 !in Keys(d)
    ensures UniqueKeys([e] + d)
    ensures Keys([e] + d) == {e.0} + Keys(d)
  {
    var r := [e] + d;
    assert r[1..] == d;
    LookupKeysSplit(r);
    forall i, j | 0 <= i < j < |r| ensures r[i].0 != r[j].0 {
      if i == 0 { assert r[j].0 == d[j - 1].0; }
      else { assert r[i] == d[i - 1] && r[j] == d[j - 1]; }
    }
  }

  /** `d[k] = v` on a key already present: the key keeps its position and
      the order of all keys is unchanged. */
  lemma {:induction false} PutExisting(d: Dict, k: string, v: string)
    requires UniqueKeys(d) && k in Keys(d)
    ensures |Put(d, k, v)| == |d|
    ensures forall i :: 0 <= i < |d| ==> Put(d, k, v)[i].0 == d[i].0
  {
    LookupKeysSplit(d);
    if d[0].0 != k {
      PutExisting(d[1..], k, v);
      var rest := Put(d[1..], k, v);
      var r := [d[0]] + rest;
      assert Put(d, k, v) == r;
      forall i | 0 < i < |d| ensures r[i].0 == d[i].0 {
        assert r[i] == rest[i - 1] && d[1..][i - 1] == d[i];
      }
    }
  }

  /** `d[k] = v` on a new key appends the entry at the end. */
  lemma {:induction false} PutNew(d: Dict, k: string, v: string)
    requires UniqueKeys(d) && k !in Keys(d)
    ensures Put(d, k, v) == d + [(k, v)]
  {
    if |d| > 0 {
      SplitFirst(d);
      assert d[0].0 != k && k !in Keys(d[1..]);
      PutNew(d[1..], k, v);
      assert Put(d, k, v) == [d[0]] + Put(d[1..], k, v);
      assert [d[0]] + (d[1..] + [(k, v)]) == d + [(k, v)];
    }
  }

  /** After `d[k] = v`, k maps to v and every other key to what it mapped
      to before. */
  lemma {:induction false} PutLookup(d: Dict, k: string, v: string, other: string)
    requires UniqueKeys(d)
    ensures Lookup(Put(d, k, v), k) == Some(v)
    ensures other != k ==> Lookup(Put(d, k, v), other) == Lookup(d, other)
  {
    if |d| > 0 && d[0].0 != k {
      PutLookup(d[1..], k, v, other);
      assert Put(d, k, v)[1..] == Put(d[1..], k, v);
    }
  }

  lemma LookupKeysSplit(d: Dict)
    requires |d| > 0
    ensures Keys(d) == {d[0].0} + Keys(d[1..])
  {
    forall x | x in Keys(d) ensures x in {d[0].0} + Keys(d[1..]) {
      var i :| 0 <= i < |d| && d[i].0 == x;
      if i > 0 { assert d[1..][i - 1].0 == x; }
    }
    forall x | x in Keys(d[1..]) ensures x in Keys(d) {
      var i :| 0 <= i < |d[1..]| && d[1..][i].0 == x;
      assert d[i + 1].0 == x;
    }
  }

  // ---------------------------------------------------------------------
  // The table.

  /** A row the scraper reads: exactly two `td` cells. */
  predicate Pair(row: seq<Node>) {
    |row| == 2
  }

  /** The dict built by the loop over the rows, in order: each two-cell row
      sets its first cell's text to its second cell's text. */
  function FromRows(rows: seq<seq<Node>>): (d: Dict)
    ensures UniqueKeys(d)
  {
    if |rows| == 0 then []
    else
      var d := FromRows(rows[..|rows| - 1]);
      var row := rows[|rows| - 1];
      if Pair(row) then Put(d, Text(row[0]), Text(row[1])) else d
  }

  /** The keys of all two-cell rows. */
  function RowKeys(rows: seq<seq<Node>>): set<string> {
    set i | 0 <= i < |rows| && Pair(rows[i]) :: Text(rows[i][0])
  }

  /** The value of the last two-cell row whose key is k. */
  function LastValue(rows: seq<seq<Node>>, k: string): Option<string>
  {
    if |rows| == 0 then None
    else
      var row := rows[|rows| - 1];
      if Pair(row) && Text(row[0]) == k then Some(Text(row[1]))
      else LastValue(rows[..|rows| - 1], k)
  }

  lemma RowKeysLast(rows: seq<seq<Node>>)
    requires |rows| > 0
    ensures var n := |rows| - 1;
      RowKeys(rows) == RowKeys(rows[..n]) + (if Pair(rows[n]) then {Text(rows[n][0])} else {})
  {
    var n := |rows| - 1;
    var init, row := rows[..n], rows[n];
    forall x | x in RowKeys(rows)
      ensures x in RowKeys(init) + (if Pair(row) then {Text(row[0])} else {})
    {
      var i :| 0 <= i < |rows| && Pair(rows[i]) && Text(rows[i][0]) == x;
      if i < n { assert init[i] == rows[i]; }
    }
    forall x | x in RowKeys(init) ensures x in RowKeys(rows) {
      var i :| 0 <= i < |init| && Pair(init[i]) && Text(init[i][0]) == x;
      assert rows[i] == init[i];
    }
  }

  /** The dict holds exactly the keys of the two-cell rows. */
  lemma {:induction false} FromRowsKeys(rows: seq<seq<Node>>)
    ensures Keys(FromRows(rows)) == RowKeys(rows)
  {
    if |rows| > 0 {
      FromRowsKeys(rows[..|rows| - 1]);
      RowKeysLast(rows);
    }
  }

  /** Each key maps to the value of the last two-cell row with that key:
      a later duplicate overwrites an earlier one. */
  lemma {:induction false} FromRowsLookup(rows: seq<seq<Node>>, k: string)
    ensures Lookup(FromRows(rows), k) == LastValue(rows, k)
  {
    if |rows| > 0 {
      var n := |rows| - 1;
      var row := rows[n];
      FromRowsLookup(rows[..n], k);
      if Pair(row) {
        PutLookup(FromRows(rows[..n]), Text(row[0]), Text(row[1]), k);
      }
    }
  }

  /** `get_business_details(url)`: the dict of the page's condensed table;
      the empty dict when the page cannot be fetched or has no such
      table. */
  function Details(site: Site, url: string): (d: Dict)
    ensures UniqueKeys(d)
    ensures url !in site || site[url].detailsTable.None? ==> d == []
    ensures url in site && site[url].detailsTable.Some? ==>
      Keys(d) == RowKeys(site[url].detailsTable.value)
  {
    match Fetch(site, url)
    case None => []
    case Some(page) =>
      match page.detailsTable
      case None => []
      case Some(rows) =>
        FromRowsKeys(rows);
        FromRows(rows)
  }

  /** A row `["Phone", "123"]` gives `{"Phone": "123"}`; a row with another
      cell count is skipped; a later `"Phone"` row overwrites the value and
      leaves a single entry. */
  lemma PhoneExample()
    ensures var phone, address := Node(["Phone"]), Node(["Address"]);
      var first := [phone, Node(["123"])];
      var odd := [address];
      var later := [phone, Node(["456"])];
      && FromRows([first]) == [("Phone", "123")]
      && FromRows([first, odd, later]) == [("Phone", "456")]
  {
    Strings.StripUnique("", "Phone", "");
    Strings.StripUnique("", "123", "");
    Strings.StripUnique("", "456", "");
    var phone, address := Node(["Phone"]), Node(["Address"]);
    var first := [phone, Node(["123"])];
    var odd := [address];
    var later := [phone, Node(["456"])];
    assert Text(phone) == "Phone";
    assert Text(Node(["123"])) == "123";
    assert Text(Node(["456"])) == "456";
    assert [first][..0] == [];
    assert FromRows([first]) == [("Phone", "123")];
    assert [first, odd][..1] == [first];
    assert FromRows([first, odd]) == [("Phone", "123")];
    assert [first, odd, later][..2] == [first, odd];
  }
}

=== FILE: directory_page.dfy ===
/** `get_categories`: the directory page's category blocks, each read as
    its links zipped with its count badges, concatenated in document order. */
module DirectoryPage {
  import opened Wrappers
  import opened Pages

  function Min(a: nat, b: nat): nat {
    if a <= b then a else b
  }

  /** The links `zip` reaches have an `href` (otherwise `a['href']` raises
      and the scraper stops). */
  predicate BlockOk(b: CategoryBlock) {
    forall i :: 0 <= i < |b.links| && i < |b.badges| ==> b.links[i].href.Some?
  }

  predicate BlocksOk(blocks: seq<CategoryBlock>) {
    forall k :: 0 <= k < |blocks| ==> BlockOk(blocks[k])
  }

  /** `zip(links, badges)`, each pair made into a record: as many records as
      the shorter list has entries, the i-th from the i-th link and badge. */
  function Zip(links: seq<Anchor>, badges: seq<Node>): (r: seq<Shell>)
    requires BlockOk(CategoryBlock(links, badges))
    ensures |r| == Min(|links|, |badges|)
    ensures forall i :: 0 <= i < |r| ==> r[i] == ShellOf(links[i], badges[i])
  {
    if |links| == 0 || |badges| == 0 then []
    else
      var rest := Zip(links[1..], badges[1..]);
      assert forall i :: 0 < i < Min(|links|, |badges|) ==> links[1..][i - 1] == links[i] && badges[1..][i - 1] == badges[i];
      [ShellOf(links[0], badges[0])] + rest
  }

  function BlockShells(b: CategoryBlock): seq<Shell>
    requires BlockOk(b)
  {
    Zip(b.links, b.badges)
  }

  /** How many records the blocks yield in all. */
  function PairCount(blocks: seq<CategoryBlock>): nat {
    if |blocks| == 0 then 0
    else PairCount(blocks[..|blocks| - 1]) + Min(|blocks[|blocks| - 1].links|, |blocks[|blocks| - 1].badges|)
  }

  /** The records of all blocks, block after block. */
  function FromBlocks(blocks: seq<CategoryBlock>): (r: seq<Shell>)
    requires BlocksOk(blocks)
    ensures |r| == PairCount(blocks)
  {
    if |blocks| == 0 then []
    else FromBlocks(blocks[..|blocks| - 1]) + BlockShells(blocks[|blocks| - 1])
  }

  /** `get_categories(url)`: a failed fetch gives the empty list; otherwise
      one record per zipped (link, badge) pair of every block. */
  function Categories(site: Site, url: string): (r: seq<Shell>)
    requires url in site ==> BlocksOk(site[url].categoryBlocks)
    ensures url !in site ==> r == []
    ensures url in site ==> |r| == PairCount(site[url].categoryBlocks)
  {
    match Fetch(site, url)
    case None => []
    case Some(page) => FromBlocks(page.categoryBlocks)
  }

  /** Reading two runs of blocks one after the other gives the records of
      the first run followed by those of the second. */
  lemma {:induction false} FromBlocksAppend(a: seq<CategoryBlock>, b: seq<CategoryBlock>)
    requires BlocksOk(a) && BlocksOk(b)
    ensures BlocksOk(a + b)
    ensures FromBlocks(a + b) == FromBlocks(a) + FromBlocks(b)
    decreases |b|
  {
    BlocksOkAppend(a, b);
    if |b| == 0 {
      assert a + b == a;
    } else {
      var n := |b| - 1;
      var ab := a + b;
      assert ab[..|ab| - 1] == a + b[..n] && ab[|ab| - 1] == b[n];
      FromBlocksAppend(a, b[..n]);
      FromBlocksLast(ab);
      FromBlocksLast(b);
      var x, y, z := FromBlocks(a), FromBlocks(b[..n]), BlockShells(b[n]);
      assert FromBlocks(a + b[..n]) == x + y;
      assert FromBlocks(ab) == (x + y) + z;
      assert (x + y) + z == x + (y + z);
    }
  }

  lemma BlocksOkAppend(a: seq<CategoryBlock>, b: seq<CategoryBlock>)
    requires BlocksOk(a) && BlocksOk(b)
    ensures BlocksOk(a + b)
  {
    forall k | 0 <= k < |a + b| ensures BlockOk((a + b)[k]) {
      if k < |a| { assert (a + b)[k] == a[k]; } else { assert (a + b)[k] == b[k - |a|]; }
    }
  }

  lemma FromBlocksLast(blocks: seq<CategoryBlock>)
    requires BlocksOk(blocks) && |blocks| > 0
    ensures FromBlocks(blocks)
         == FromBlocks(blocks[..|blocks| - 1]) + BlockShells(blocks[|blocks| - 1])
  {
  }

  /** Every category link is absolute. */
  lemma {:induction false} CategoryHrefs(blocks: seq<CategoryBlock>)
    requires BlocksOk(blocks)
    ensures forall i :: 0 <= i < |FromBlocks(blocks)| ==> IsAbsolute(FromBlocks(blocks)[i].href)
  {
    if |blocks| > 0 {
      var n := |blocks| - 1;
      CategoryHrefs(blocks[..n]);
      FromBlocksLast(blocks);
      var head, tail := FromBlocks(blocks[..n]), BlockShells(blocks[n]);
      var r: seq<Shell> := head + tail;
      forall i | 0 <= i < |r| ensures IsAbsolute(r[i].href) {
        if i >= |head| {
          ShellFields(blocks[n].links[i - |head|], blocks[n].badges[i - |head|]);
        }
      }
    }
  }

  /** Where a pair lands: the i-th pair of block k is the record right after
      the records of the blocks before k. */
  lemma {:induction false} CategoryAt(blocks: seq<CategoryBlock>, k: nat, i: nat)
    requires BlocksOk(blocks)
    requires k < |blocks| && i < Min(|blocks[k].links|, |blocks[k].badges|)
    ensures PairCount(blocks[..k]) + i < |FromBlocks(blocks)|
    ensures FromBlocks(blocks)[PairCount(blocks[..k]) + i]
         == ShellOf(blocks[k].links[i], blocks[k].badges[i])
  {
    var n := |blocks| - 1;
    var init := blocks[..n];
    BlocksOkSlice(blocks, 0, n);
    assert blocks[0..n] == init;
    FromBlocksLast(blocks);
    var x, y := FromBlocks(init), BlockShells(blocks[n]);
    var p := PairCount(blocks[..k]);
    if k == n {
      assert blocks[..k] == init;
      assert p == |x|;
      assert y[i] == ShellOf(blocks[n].links[i], blocks[n].badges[i]);
      assert (x + y)[p + i] == y[i];
    } else {
      assert init[..k] == blocks[..k] && init[k] == blocks[k];
      CategoryAt(init, k, i);
      assert (x + y)[p + i] == x[p + i];
    }
  }

  lemma BlocksOkSlice(blocks: seq<CategoryBlock>, i: nat, j: nat)
    requires BlocksOk(blocks) && i <= j <= |blocks|
    ensures BlocksOk(blocks[i..j])
  {
    forall k | 0 <= k < j - i ensures BlockOk(blocks[i..j][k]) {
      assert blocks[i..j][k] == blocks[i + k];
    }
  }

  /** With one link and one badge per block, there is one record per block,
      in block order. */
  lemma {:induction false} OneRecordPerBlock(blocks: seq<CategoryBlock>)
    requires forall k :: 0 <= k < |blocks| ==>
      |blocks[k].links| == 1 && |blocks[k].badges| == 1 && blocks[k].links[0].href.Some?
    ensures BlocksOk(blocks)
    ensures |FromBlocks(blocks)| == |blocks|
    ensures forall k :: 0 <= k < |blocks| ==>
      FromBlocks(blocks)[k] == ShellOf(blocks[k].links[0], blocks[k].badges[0])
  {
    assert BlocksOk(blocks);
    UnitPairCount(blocks);
    forall k | 0 <= k < |blocks|
      ensures FromBlocks(blocks)[k] == ShellOf(blocks[k].links[0], blocks[k].badges[0])
    {
      UnitPairCount(blocks[..k]);
      CategoryAt(blocks, k, 0);
    }
  }

  /** Blocks of one pair each hold as many pairs as there are blocks. */
  lemma {:induction false} UnitPairCount(blocks: seq<CategoryBlock>)
    requires forall k :: 0 <= k < |blocks| ==> |blocks[k].links| == 1 && |blocks[k].badges| == 1
    ensures PairCount(blocks) == |blocks|
  {
    if |blocks| > 0 {
      var n := |blocks| - 1;
      assert forall k :: 0 <= k < n ==> blocks[..n][k] == blocks[k];
      UnitPairCount(blocks[..n]);
    }
  }

  /** The inner loop of `get_categories`: append one record per zipped
      (link, badge) pair of a block. */
  method AppendBlock(list: seq<Shell>, block: CategoryBlock) returns (out: seq<Shell>)
    requires BlockOk(block)
    ensures out == list + BlockShells(block)
  {
    var n := Min(|block.links|, |block.badges|);
    out := list;
    var i := 0;
    while i < n
      invariant 0 <= i <= n
      invariant out == list + BlockShells(block)[..i]
    {
      PairStep(block, i);
      out := out + [ShellOf(block.links[i], block.badges[i])];
      i := i + 1;
    }
    assert BlockShells(block)[..n] == BlockShells(block);
  }

  /** One more zipped pair adds that pair's record. */
  lemma PairStep(block: CategoryBlock, i: nat)
    requires BlockOk(block) && i < Min(|block.links|, |block.badges|)
    ensures BlockShells(block)[..i + 1]
         == BlockShells(block)[..i] + [ShellOf(block.links[i], block.badges[i])]
  {
    var pairs := BlockShells(block);
    TakeStep(pairs, i);
  }

  lemma TakeStep(s: seq<Shell>, i: nat)
    requires i < |s|
    ensures s[..i + 1] == s[..i] + [s[i]]
  {
    assert s[..i + 1] == s[..i] + [s[i]];
  }

  /** The outer loop of `get_categories`: the blocks in document order. */
  method ExtractCategories(blocks: seq<CategoryBlock>) returns (list: seq<Shell>)
    requires BlocksOk(blocks)
    ensures list == FromBlocks(blocks)
  {
    list := [];
    var k := 0;
    while k < |blocks|
      invariant 0 <= k <= |blocks|
      invariant list == FromBlocks(blocks[..k])
    {
      list := AppendBlock(list, blocks[k]);
      FromBlocksLast(blocks[..k + 1]);
      assert blocks[..k + 1][..k] == blocks[..k];
      k := k + 1;
    }
    assert blocks[..k] == blocks;
  }
}

=== FILE: export.dfy ===
/** `scrape_to_csv`: the crawl from the directory page down to every
    business, flattened into one row per business that carries the names of
    its subcategory and category, after the fixed header row. Writing the
    rows to a file is outside the model; so is `str(dict)`, which becomes
    the `render` parameter turning a business's details into its last
    cell. */
module Export {
  import opened Wrappers
  import opened Pages
  import opened DirectoryPage
  import opened CategoryPage
  import opened ListingPages
  import opened DetailPage

  const Header: seq<string> := ["Business Name", "Subcategory", "Category", "Details"]

  /** One business row: the business, its subcategory, its category, its
      rendered details. */
  datatype Row = Row(business: string, subcategory: string, category: string, details: string)

  function Cells(row: Row): seq<string> {
    [row.business, row.subcategory, row.category, row.details]
  }

  /** The row the scraper writes for business b of subcategory `sub` of a
      category named `category`; the details are fetched afresh from the
      business's own page. */
  function RowFor(site: Site, category: string, sub: Shell, b: Business, render: Dict -> string): Row
  {
    Row(b.name, sub.name, category, render(Details(site, b.href)))
  }

  /** The innermost loop: one row per business, in order. */
  function BusinessRows(site: Site, category: string, sub: Shell, found: seq<Business>,
                        render: Dict -> string): (rows: seq<Row>)
    ensures |rows| == |found|
    ensures forall k :: 0 <= k < |rows| ==> rows[k] == RowFor(site, category, sub, found[k], render)
  {
    if |found| == 0 then []
    else [RowFor(site, category, sub, found[0], render)]
         + BusinessRows(site, category, sub, found[1..], render)
  }

  /** Both parts' rows, the first part's first; None if either is None. */
  function Join(a: Option<seq<Row>>, b: Option<seq<Row>>): Option<seq<Row>>
  {
    if a.Some? && b.Some? then Some(a.value + b.value) else None
  }

  lemma JoinAssociative(x: Option<seq<Row>>, y: Option<seq<Row>>, z: Option<seq<Row>>)
    ensures Join(Join(x, y), z) == Join(x, Join(y, z))
  {
    if x.Some? && y.Some? && z.Some? {
      assert (x.value + y.value) + z.value == x.value + (y.value + z.value);
    }
  }

  lemma JoinEmpty(x: Option<seq<Row>>)
    ensures Join(Some([]), x) == x && Join(x, Some([])) == x
  {
    if x.Some? {
      assert [] + x.value == x.value && x.value + [] == x.value;
    }
  }

  /** Every subcategory's walk is readable. */
  predicate WalksOk(site: Site, subs: seq<Shell>, maxPages: nat) {
    forall j :: 0 <= j < |subs| ==> WalkOk(site, subs[j].href, maxPages)
  }

  lemma WalksOkAppend(site: Site, a: seq<Shell>, b: seq<Shell>, maxPages: nat)
    requires WalksOk(site, a, maxPages) && WalksOk(site, b, maxPages)
    ensures WalksOk(site, a + b, maxPages)
  {
    forall j | 0 <= j < |a + b| ensures WalkOk(site, (a + b)[j].href, maxPages) {
      if j < |a| { assert (a + b)[j] == a[j]; } else { assert (a + b)[j] == b[j - |a|]; }
    }
  }

  /** The businesses of a subcategory whose walk ended within the bound. */
  function Found(site: Site, sub: Shell, maxPages: nat): seq<Business>
    requires WalkOk(site, sub.href, maxPages)
  {
    match Businesses(site, sub.href, maxPages)
    case Some(found) => found
    case None => []
  }

  /** How many businesses the subcategories hold in all. */
  function FoundCount(site: Site, subs: seq<Shell>, maxPages: nat): nat
    requires WalksOk(site, subs, maxPages)
  {
    if |subs| == 0 then 0 else |Found(site, subs[0], maxPages)| + FoundCount(site, subs[1..], maxPages)
  }

  /** The rows of one subcategory; None if its walk did not end within the
      bound. */
  function SubRows(site: Site, category: string, sub: Shell, maxPages: nat,
                   render: Dict -> string): Option<seq<Row>>
    requires WalkOk(site, sub.href, maxPages)
  {
    match Businesses(site, sub.href, maxPages)
    case None => None
    case Some(found) => Some(BusinessRows(site, category, sub, found, render))
  }

  /** The loop over a category's subcategories: each one's rows in turn;
      None if some walk did not end within the bound. */
  function SubcategoryRows(site: Site, category: string, subs: seq<Shell>, maxPages: nat,
                           render: Dict -> string): Option<seq<Row>>
    requires WalksOk(site, subs, maxPages)
  {
    if |subs| == 0 then Some([])
    else Join(SubRows(site, category, subs[0], maxPages, render),
              SubcategoryRows(site, category, subs[1..], maxPages, render))
  }

  /** Every category page, and every walk below it, is readable. */
  predicate CategoryOk(site: Site, category: Shell, maxPages: nat) {
    && CategoryPageOk(site, category.href)
    && WalksOk(site, Subcategories(site, category.href), maxPages)
  }

  predicate CategoriesOk(site: Site, cats: seq<Shell>, maxPages: nat) {
    forall i :: 0 <= i < |cats| ==> CategoryOk(site, cats[i], maxPages)
  }

  lemma CategoriesOkAppend(site: Site, a: seq<Shell>, b: seq<Shell>, maxPages: nat)
    requires CategoriesOk(site, a, maxPages) && CategoriesOk(site, b, maxPages)
    ensures CategoriesOk(site, a + b, maxPages)
  {
    forall i | 0 <= i < |a + b| ensures CategoryOk(site, (a + b)[i], maxPages) {
      if i < |a| { assert (a + b)[i] == a[i]; } else { assert (a + b)[i] == b[i - |a|]; }
    }
  }

  /** How many businesses lie below the categories in all. */
  function CrawlCount(site: Site, cats: seq<Shell>, maxPages: nat): nat
    requires CategoriesOk(site, cats, maxPages)
  {
    if |cats| == 0 then 0
    else FoundCount(site, Subcategories(site, cats[0].href), maxPages) + CrawlCount(site, cats[1..], maxPages)
  }

  /** The rows of one category: its subcategories' rows. */
  function CategoryRowsOf(site: Site, category: Shell, maxPages: nat, render: Dict -> string): Option<seq<Row>>
    requires CategoryOk(site, category, maxPages)
  {
    SubcategoryRows(site, category.name, Subcategories(site, category.href), maxPages, render)
  }

  /** The loop over the categories: each one's rows in turn. */
  function CategoryRows(site: Site, cats: seq<Shell>, maxPages: nat,
                        render: Dict -> string): Option<seq<Row>>
    requires CategoriesOk(site, cats, maxPages)
  {
    if |cats| == 0 then Some([])
    else Join(CategoryRowsOf(site, cats[0], maxPages, render), CategoryRows(site, cats[1..], maxPages, render))
  }

  /** Every page the crawl from the directory page reads is readable. */
  predicate ExportOk(site: Site, url: string, maxPages: nat) {
    && (url in site ==> BlocksOk(site[url].categoryBlocks))
    && CategoriesOk(site, Categories(site, url), maxPages)
  }

  /** The rows as lists of cells, as the CSV writer receives them. */
  function Lines(rows: seq<Row>): (lines: seq<seq<string>>)
    ensures |lines| == |rows|
    ensures forall i :: 0 <= i < |rows| ==> lines[i] == Cells(rows[i])
  {
    if |rows| == 0 then [] else [Cells(rows[0])] + Lines(rows[1..])
  }

  /** `scrape_to_csv(url)`: the header row, then every business row. When
      the directory page cannot be fetched, only the header is written. */
  function Export(site: Site, url: string, maxPages: nat, render: Dict -> string)
      : (table: Option<seq<seq<string>>>)
    requires ExportOk(site, url, maxPages)
    ensures table.Some? ==> |table.value| == 1 + CrawlCount(site, Categories(site, url), maxPages)
    ensures table.Some? ==> table.value[0] == Header
    ensures table.Some? ==> forall i :: 1 <= i < |table.value| ==> |table.value[i]| == 4
    ensures url !in site ==> table == Some([Header])
  {
    match CategoryRows(site, Categories(site, url), maxPages, render)
    case None => None
    case Some(rows) =>
      CategoryRowsCount(site, Categories(site, url), maxPages, render);
      TableShape(rows);
      Some([Header] + Lines(rows))
  }

  /** The header, then one line of four cells per row. */
  lemma TableShape(rows: seq<Row>)
    ensures var table := [Header] + Lines(rows);
      && |table| == 1 + |rows| && table[0] == Header
      && (forall i :: 1 <= i < |table| ==> table[i] == Cells(rows[i - 1]) && |table[i]| == 4)
      && (rows == [] ==> table == [Header])
  {
    var table := [Header] + Lines(rows);
    assert forall i :: 1 <= i < |table| ==> table[i] == Lines(rows)[i - 1];
  }

  /** The table is the header followed by the crawl's rows, and exists
      exactly when they do. */
  lemma ExportTable(site: Site, url: string, maxPages: nat, render: Dict -> string)
    requires ExportOk(site, url, maxPages)
    ensures var rows := CategoryRows(site, Categories(site, url), maxPages, render);
      && (rows.None? <==> Export(site, url, maxPages, render).None?)
      && (rows.Some? ==> Export(site, url, maxPages, render).value == [Header] + Lines(rows.value))
  {
  }

  // ---------------------------------------------------------------------
  // When rows exist, and how many.

  /** A category's rows exist exactly when every one of its subcategory
      walks ends within the bound. */
  lemma {:induction false} SubcategoryRowsDefined(site: Site, category: string, subs: seq<Shell>,
                                                  maxPages: nat, render: Dict -> string)
    requires WalksOk(site, subs, maxPages)
    ensures SubcategoryRows(site, category, subs, maxPages, render).Some?
        <==> forall j :: 0 <= j < |subs| ==> Businesses(site, subs[j].href, maxPages).Some?
  {
    if |subs| > 0 {
      SubcategoryRowsDefined(site, category, subs[1..], maxPages, render);
      assert forall j :: 0 < j < |subs| ==> subs[1..][j - 1] == subs[j];
    }
  }

  /** One row per business of every subcategory. */
  lemma {:induction false} SubcategoryRowsCount(site: Site, category: string, subs: seq<Shell>,
                                                maxPages: nat, render: Dict -> string)
    requires WalksOk(site, subs, maxPages)
    ensures var r := SubcategoryRows(site, category, subs, maxPages, render);
      r.Some? ==> |r.value| == FoundCount(site, subs, maxPages)
  {
    if |subs| > 0 {
      SubcategoryRowsCount(site, category, subs[1..], maxPages, render);
    }
  }

  /** One row per business below every category. */
  lemma {:induction false} CategoryRowsCount(site: Site, cats: seq<Shell>, maxPages: nat,
                                             render: Dict -> string)
    requires CategoriesOk(site, cats, maxPages)
    ensures var r := CategoryRows(site, cats, maxPages, render);
      r.Some? ==> |r.value| == CrawlCount(site, cats, maxPages)
  {
    if |cats| > 0 {
      SubcategoryRowsCount(site, cats[0].name, Subcategories(site, cats[0].href), maxPages, render);
      CategoryRowsCount(site, cats[1..], maxPages, render);
    }
  }

  // ---------------------------------------------------------------------
  // Which rows there are.

  /** A row of a category's subcategories is exactly the row of some
      business k of some subcategory j, named after both. */
  lemma {:induction false} SubcategoryRowsMembers(site: Site, category: string, subs: seq<Shell>,
                                                  maxPages: nat, render: Dict -> string, row: Row)
    requires WalksOk(site, subs, maxPages)
    requires SubcategoryRows(site, category, subs, maxPages, render).Some?
    ensures row in SubcategoryRows(site, category, subs, maxPages, render).value <==>
      exists j, k :: RowOf(site, category, subs, maxPages, render, row, j, k)
  {
    if |subs| > 0 {
      var here := BusinessRows(site, category, subs[0], Found(site, subs[0], maxPages), render);
      var tail := subs[1..];
      SubcategoryRowsMembers(site, category, tail, maxPages, render, row);
      var rest := SubcategoryRows(site, category, tail, maxPages, render).value;
      assert SubRows(site, category, subs[0], maxPages, render) == Some(here);
      assert SubcategoryRows(site, category, subs, maxPages, render).value == here + rest;
      if row in here {
        var k :| 0 <= k < |here| && here[k] == row;
        assert RowOf(site, category, subs, maxPages, render, row, 0, k);
      } else if row in rest {
        var j, k :| RowOf(site, category, tail, maxPages, render, row, j, k);
        assert tail[j] == subs[j + 1];
        assert RowOf(site, category, subs, maxPages, render, row, j + 1, k);
      }
      if exists j, k :: RowOf(site, category, subs, maxPages, render, row, j, k) {
        var j, k :| RowOf(site, category, subs, maxPages, render, row, j, k);
        if j == 0 {
          assert here[k] == row;
        } else {
          assert subs[j] == tail[j - 1];
          assert RowOf(site, category, tail, maxPages, render, row, j - 1, k);
        }
      }
    }
  }

  /** Row `row` is the row of business k of subcategory j. */
  predicate RowOf(site: Site, category: string, subs: seq<Shell>, maxPages: nat, render: Dict -> string,
                  row: Row, j: int, k: int)
    requires WalksOk(site, subs, maxPages)
  {
    && 0 <= j < |subs|
    && 0 <= k < |Found(site, subs[j], maxPages)|
    && row == RowFor(site, category, subs[j], Found(site, subs[j], maxPages)[k], render)
  }

  /** Row `row` is the row of business k of subcategory j of category i. */
  predicate RowBelow(site: Site, cats: seq<Shell>, maxPages: nat, render: Dict -> string,
                     row: Row, i: int, j: int, k: int)
    requires CategoriesOk(site, cats, maxPages)
  {
    && 0 <= i < |cats|
    && var subs := Subcategories(site, cats[i].href);
       && 0 <= j < |subs|
       && 0 <= k < |Found(site, subs[j], maxPages)|
       && row == RowFor(site, cats[i].name, subs[j], Found(site, subs[j], maxPages)[k], render)
  }

  /** The whole crawl's rows are exactly the rows of some business k of
      some subcategory j of some category i. */
  lemma {:induction false} CategoryRowsMembers(site: Site, cats: seq<Shell>, maxPages: nat,
                                               render: Dict -> string, row: Row)
    requires CategoriesOk(site, cats, maxPages)
    requires CategoryRows(site, cats, maxPages, render).Some?
    ensures row in CategoryRows(site, cats, maxPages, render).value <==>
      exists i, j, k :: RowBelow(site, cats, maxPages, render, row, i, j, k)
  {
    if |cats| > 0 {
      var subs := Subcategories(site, cats[0].href);
      var here := SubcategoryRows(site, cats[0].name, subs, maxPages, render).value;
      var tail := cats[1..];
      assert CategoriesOk(site, tail, maxPages);
      CategoryRowsMembers(site, tail, maxPages, render, row);
      SubcategoryRowsMembers(site, cats[0].name, subs, maxPages, render, row);
      var rest := CategoryRows(site, tail, maxPages, render).value;
      assert CategoryRows(site, cats, maxPages, render).value == here + rest;
      if row in here {
        var j, k :| RowOf(site, cats[0].name, subs, maxPages, render, row, j, k);
        assert RowBelow(site, cats, maxPages, render, row, 0, j, k);
      } else if row in rest {
        var i, j, k :| RowBelow(site, tail, maxPages, render, row, i, j, k);
        assert tail[i] == cats[i + 1];
        assert RowBelow(site, cats, maxPages, render, row, i + 1, j, k);
      }
      if exists i, j, k :: RowBelow(site, cats, maxPages, render, row, i, j, k) {
        var i, j, k :| RowBelow(site, cats, maxPages, render, row, i, j, k);
        if i == 0 {
          assert RowOf(site, cats[0].name, subs, maxPages, render, row, j, k);
        } else {
          assert cats[i] == tail[i - 1];
          assert RowBelow(site, tail, maxPages, render, row, i - 1, j, k);
        }
      }
    }
  }

  /** Every business row of the crawl, and nothing else, follows the
      header: a row appears exactly when it is the row of some business k
      of some subcategory j of some category i of the directory page. */
  lemma ExportContents(site: Site, url: string, maxPages: nat, render: Dict -> string, row: Row)
    requires ExportOk(site, url, maxPages)
    requires Export(site, url, maxPages, render).Some?
    ensures Cells(row) in Export(site, url, maxPages, render).value[1..] <==>
      exists i, j, k :: RowBelow(site, Categories(site, url), maxPages, render, row, i, j, k)
  {
    var cats := Categories(site, url);
    var rows := CategoryRows(site, cats, maxPages, render).value;
    ExportTable(site, url, maxPages, render);
    var table := Export(site, url, maxPages, render).value;
    assert table[1..] == Lines(rows);
    LinesMembers(rows, row);
    CategoryRowsMembers(site, cats, maxPages, render, row);
  }

  /** A row's cells are among the lines exactly when the row is among the
      rows. */
  lemma LinesMembers(rows: seq<Row>, row: Row)
    ensures Cells(row) in Lines(rows) <==> row in rows
  {
    if Cells(row) in Lines(rows) {
      var n :| 0 <= n < |rows| && Lines(rows)[n] == Cells(row);
      assert Cells(rows[n]) == Cells(row);
      assert rows[n] == row;
    }
    if row in rows {
      var n :| 0 <= n < |rows| && rows[n] == row;
      assert Lines(rows)[n] == Cells(row);
    }
  }

  // ---------------------------------------------------------------------
  // Order: rows come category by category, subcategory by subcategory.

  lemma {:induction false} SubcategoryRowsAppend(site: Site, category: string, a: seq<Shell>, b: seq<Shell>,
                                                 maxPages: nat, render: Dict -> string)
    requires WalksOk(site, a, maxPages) && WalksOk(site, b, maxPages)
    ensures WalksOk(site, a + b, maxPages)
    ensures SubcategoryRows(site, category, a + b, maxPages, render)
         == Join(SubcategoryRows(site, category, a, maxPages, render),
                 SubcategoryRows(site, category, b, maxPages, render))
  {
    WalksOkAppend(site, a, b, maxPages);
    if |a| == 0 {
      assert a + b == b;
      JoinEmpty(SubcategoryRows(site, category, b, maxPages, render));
    } else {
      assert (a + b)[1..] == a[1..] + b && (a + b)[0] == a[0];
      assert WalksOk(site, a[1..], maxPages);
      SubcategoryRowsAppend(site, category, a[1..], b, maxPages, render);
      JoinAssociative(SubRows(site, category, a[0], maxPages, render),
                      SubcategoryRows(site, category, a[1..], maxPages, render),
                      SubcategoryRows(site, category, b, maxPages, render));
    }
  }

  lemma {:induction false} CategoryRowsAppend(site: Site, a: seq<Shell>, b: seq<Shell>,
                                              maxPages: nat, render: Dict -> string)
    requires CategoriesOk(site, a, maxPages) && CategoriesOk(site, b, maxPages)
    ensures CategoriesOk(site, a + b, maxPages)
    ensures CategoryRows(site, a + b, maxPages, render)
         == Join(CategoryRows(site, a, maxPages, render), CategoryRows(site, b, maxPages, render))
  {
    CategoriesOkAppend(site, a, b, maxPages);
    if |a| == 0 {
      assert a + b == b;
      JoinEmpty(CategoryRows(site, b, maxPages, render));
    } else {
      assert (a + b)[1..] == a[1..] + b && (a + b)[0] == a[0];
      assert CategoriesOk(site, a[1..], maxPages);
      CategoryRowsAppend(site, a[1..], b, maxPages, render);
      var head := CategoryRowsOf(site, a[0], maxPages, render);
      assert CategoryRows(site, a + b, maxPages, render) == Join(head, CategoryRows(site, a[1..] + b, maxPages, render));
      assert CategoryRows(site, a, maxPages, render) == Join(head, CategoryRows(site, a[1..], maxPages, render));
      JoinAssociative(CategoryRowsOf(site, a[0], maxPages, render),
                      CategoryRows(site, a[1..], maxPages, render),
                      CategoryRows(site, b, maxPages, render));
    }
  }

  /** A subcategory without businesses, for instance one whose listing
      pages could not be fetched, contributes no rows: removing it leaves
      the rows of its siblings unchanged. */
  lemma EmptySubcategoryNoRows(site: Site, category: string, before: seq<Shell>, sub: Shell,
                               after: seq<Shell>, maxPages: nat, render: Dict -> string)
    requires WalksOk(site, before, maxPages) && WalksOk(site, after, maxPages)
    requires WalkOk(site, sub.href, maxPages)
    requires Businesses(site, sub.href, maxPages) == Some([])
    ensures WalksOk(site, before + [sub] + after, maxPages) && WalksOk(site, before + after, maxPages)
    ensures SubcategoryRows(site, category, before + [sub] + after, maxPages, render)
         == SubcategoryRows(site, category, before + after, maxPages, render)
  {
    assert WalksOk(site, [sub], maxPages);
    SubcategoryRowsAppend(site, category, before, [sub], maxPages, render);
    SubcategoryRowsAppend(site, category, before + [sub], after, maxPages, render);
    SubcategoryRowsAppend(site, category, before, after, maxPages, render);
    assert [sub][1..] == [];
    var x := SubcategoryRows(site, category, before, maxPages, render);
    var y := SubcategoryRows(site, category, after, maxPages, render);
    assert BusinessRows(site, category, sub, [], render) == [];
    assert SubcategoryRows(site, category, [sub], maxPages, render) == Join(Some([]), Some([]));
    JoinEmpty(Some([]));
    JoinEmpty(x);
    JoinAssociative(x, Some([]), y);
  }

  /** A subcategory whose listing walk hits a failed fetch contributes no
      rows and does not stop the crawl of its siblings. */
  lemma FailedSubcategoryTolerated(site: Site, category: string, before: seq<Shell>, sub: Shell,
                                   after: seq<Shell>, maxPages: nat, render: Dict -> string)
    requires WalksOk(site, before, maxPages) && WalksOk(site, after, maxPages)
    requires WalkOk(site, sub.href, maxPages)
    requires WalkFrom(site, sub.href, maxPages).Failed?
    ensures WalksOk(site, before + [sub] + after, maxPages) && WalksOk(site, before + after, maxPages)
    ensures SubcategoryRows(site, category, before + [sub] + after, maxPages, render)
         == SubcategoryRows(site, category, before + after, maxPages, render)
  {
    EmptySubcategoryNoRows(site, category, before, sub, after, maxPages, render);
  }

  // ---------------------------------------------------------------------
  // One category with two subcategories: A lists one business, B none.

  /** Two subcategories, the first with one business and the second with
      none, give exactly the first business's row. */
  lemma TwoSubcategoriesOneRow(site: Site, category: string, a: Shell, b: Shell, shop: Business,
                               maxPages: nat, render: Dict -> string)
    requires WalkOk(site, a.href, maxPages) && WalkOk(site, b.href, maxPages)
    requires Businesses(site, a.href, maxPages) == Some([shop])
    requires Businesses(site, b.href, maxPages) == Some([])
    ensures WalksOk(site, [a, b], maxPages)
    ensures SubcategoryRows(site, category, [a, b], maxPages, render) == Some([RowFor(site, category, a, shop, render)])
  {
    var row := RowFor(site, category, a, shop, render);
    assert WalksOk(site, [a, b], maxPages);
    assert [b][1..] == [] && [a, b][1..] == [b];
    assert BusinessRows(site, category, b, [], render) == [];
    assert SubcategoryRows(site, category, [b], maxPages, render) == Join(Some([]), Some([]));
    JoinEmpty(Some([]));
    assert BusinessRows(site, category, a, [shop], render) == [row];
    assert SubcategoryRows(site, category, [a, b], maxPages, render) == Join(Some([row]), Some([]));
    JoinEmpty(Some([row]));
  }

  /** A single category's rows are its subcategories' rows. */
  lemma OneCategoryRows(site: Site, category: Shell, maxPages: nat, render: Dict -> string)
    requires CategoryOk(site, category, maxPages)
    ensures CategoriesOk(site, [category], maxPages)
    ensures CategoryRows(site, [category], maxPages, render) == CategoryRowsOf(site, category, maxPages, render)
  {
    assert [category][1..] == [];
    JoinEmpty(CategoryRowsOf(site, category, maxPages, render));
  }

  /** The shape of the crawl: one category, whose first subcategory lists
      one business and whose second lists none, gives the header and
      exactly one data row. */
  lemma OneBusinessOneRow(site: Site, url: string, maxPages: nat, render: Dict -> string,
                          food: Shell, a: Shell, b: Shell, shop: Business)
    requires url in site ==> BlocksOk(site[url].categoryBlocks)
    requires Categories(site, url) == [food]
    requires CategoryPageOk(site, food.href)
    requires Subcategories(site, food.href) == [a, b]
    requires WalkOk(site, a.href, maxPages) && WalkOk(site, b.href, maxPages)
    requires Businesses(site, a.href, maxPages) == Some([shop])
    requires Businesses(site, b.href, maxPages) == Some([])
    ensures ExportOk(site, url, maxPages)
    ensures Export(site, url, maxPages, render)
         == Some([Header, [shop.name, a.name, food.name, render(Details(site, shop.href))]])
  {
    var row := RowFor(site, food.name, a, shop, render);
    TwoSubcategoriesOneRow(site, food.name, a, b, shop, maxPages, render);
    OneCategoryRows(site, food, maxPages, render);
    assert CategoryRows(site, [food], maxPages, render) == Some([row]);
    ExportTable(site, url, maxPages, render);
    assert Lines([row]) == [Cells(row)];
    assert [Header] + [Cells(row)] == [Header, Cells(row)];
  }

  /** A directory page at `dir` with one category block; the category page
      lists subcategories a and b (counts "(1)" and "(0)"); a's only page
      lists the business `shop`, b's page lists nothing. */
  function TreeSite(dir: string, food: Anchor, a: Anchor, b: Anchor, shop: Anchor): Site
    requires food.href.Some? && a.href.Some? && b.href.Some?
  {
    map[dir := Page([CategoryBlock([food], [Node(["(2)"])])], None, None, None, None),
        Absolute(food.href.value) :=
          Page([], Some(SubcategoryBox(Some([ListItem(Some(a), Some(Node(["(1)"]))),
                                              ListItem(Some(b), Some(Node(["(0)"])))]))),
               None, None, None),
        Absolute(a.href.value) := Page([], None, Some([Headed(shop)]), None, None),
        Absolute(b.href.value) := Page([], None, Some([]), None, None)]
  }

  /** All four links carry an `href`, and the five URLs differ. */
  predicate TreeOk(dir: string, food: Anchor, a: Anchor, b: Anchor, shop: Anchor) {
    && food.href.Some? && a.href.Some? && b.href.Some? && shop.href.Some?
    && var f, x, y, z := food.href.value, a.href.value, b.href.value, shop.href.value;
       && f != x && f != y && f != z && x != y && x != z && y != z
       && dir != Absolute(f) && dir != Absolute(x) && dir != Absolute(y) && dir != Absolute(z)
  }

  lemma TreeUrls(dir: string, food: Anchor, a: Anchor, b: Anchor, shop: Anchor)
    requires TreeOk(dir, food, a, b, shop)
    ensures var s := TreeSite(dir, food, a, b, shop);
      && s[dir].categoryBlocks == [CategoryBlock([food], [Node(["(2)"])])]
      && s[Absolute(food.href.value)].subcategoryBox
         == Some(SubcategoryBox(Some([ListItem(Some(a), Some(Node(["(1)"]))),
                                      ListItem(Some(b), Some(Node(["(0)"])))])))
      && s[Absolute(a.href.value)] == Page([], None, Some([Headed(shop)]), None, None)
      && s[Absolute(b.href.value)] == Page([], None, Some([]), None, None)
      && Absolute(shop.href.value) !in s
  {
    var f, x, y, z := food.href.value, a.href.value, b.href.value, shop.href.value;
    AbsoluteInjective(f, x);
    AbsoluteInjective(f, y);
    AbsoluteInjective(f, z);
    AbsoluteInjective(x, y);
    AbsoluteInjective(x, z);
    AbsoluteInjective(y, z);
  }

  lemma TreeCategories(dir: string, food: Anchor, a: Anchor, b: Anchor, shop: Anchor)
    requires TreeOk(dir, food, a, b, shop)
    ensures dir in TreeSite(dir, food, a, b, shop)
    ensures BlocksOk(TreeSite(dir, food, a, b, shop)[dir].categoryBlocks)
    ensures Categories(TreeSite(dir, food, a, b, shop), dir) == [ShellOf(food, Node(["(2)"]))]
  {
    TreeUrls(dir, food, a, b, shop);
    var block := CategoryBlock([food], [Node(["(2)"])]);
    OneRecordPerBlock([block]);
  }

  lemma TreeSubcategories(dir: string, food: Anchor, a: Anchor, b: Anchor, shop: Anchor)
    requires TreeOk(dir, food, a, b, shop)
    ensures CategoryPageOk(TreeSite(dir, food, a, b, shop), Absolute(food.href.value))
    ensures Subcategories(TreeSite(dir, food, a, b, shop), Absolute(food.href.value))
         == [ShellOf(a, Node(["(1)"])), ShellOf(b, Node(["(0)"]))]
  {
    TreeUrls(dir, food, a, b, shop);
    var site := TreeSite(dir, food, a, b, shop);
    var url := Absolute(food.href.value);
    assert url in site;
    assert CategoryPageOk(site, url);
    OneRecordPerItem(site, url);
  }

  lemma TreeWalks(dir: string, food: Anchor, a: Anchor, b: Anchor, shop: Anchor)
    requires TreeOk(dir, food, a, b, shop)
    ensures WalkOk(TreeSite(dir, food, a, b, shop), Absolute(a.href.value), 1)
    ensures WalkOk(TreeSite(dir, food, a, b, shop), Absolute(b.href.value), 1)
    ensures Businesses(TreeSite(dir, food, a, b, shop), Absolute(a.href.value), 1) == Some([Entry(shop)])
    ensures Businesses(TreeSite(dir, food, a, b, shop), Absolute(b.href.value), 1) == Some([])
  {
    TreeUrls(dir, food, a, b, shop);
    var site := TreeSite(dir, food, a, b, shop);
    PageBusinessesSingle(Headed(shop));
    assert WalkOk(site, Absolute(a.href.value), 1);
    WalkStep(site, Absolute(a.href.value), 1);
    assert WalkOk(site, Absolute(b.href.value), 1);
    WalkStep(site, Absolute(b.href.value), 1);
  }

  /** The single business yields the single data row, carrying its
      subcategory's and category's names and its empty details (its page
      cannot be fetched); subcategory b yields no row. */
  lemma OneCategoryTwoSubcategories(dir: string, food: Anchor, a: Anchor, b: Anchor, shop: Anchor,
                                    render: Dict -> string)
    requires TreeOk(dir, food, a, b, shop)
    ensures ExportOk(TreeSite(dir, food, a, b, shop), dir, 1)
    ensures Export(TreeSite(dir, food, a, b, shop), dir, 1, render)
         == Some([Header, [Text(shop.caption), Text(a.caption), Text(food.caption), render([])]])
  {
    var site := TreeSite(dir, food, a, b, shop);
    TreeUrls(dir, food, a, b, shop);
    TreeCategories(dir, food, a, b, shop);
    TreeSubcategories(dir, food, a, b, shop);
    TreeWalks(dir, food, a, b, shop);
    var foodShell := ShellOf(food, Node(["(2)"]));
    var aShell, bShell := ShellOf(a, Node(["(1)"])), ShellOf(b, Node(["(0)"]));
    assert Details(site, Entry(shop).href) == [];
    OneBusinessOneRow(site, dir, 1, render, foodShell, aShell, bShell, Entry(shop));
  }
}

=== FILE: listing_pages.dfy ===
/** `get_businesses`: the paginated walk over a subcategory's listing
    pages. Each page contributes one business per listing heading; the walk
    follows the page's "Next" link until a page has no listings container
    or no such link. A failed fetch on any page, the first or a later one,
    discards everything gathered and yields the empty list.

    The source's loop has no bound: a "Next" chain that cycles never ends.
    The model walks at most `maxPages` pages and reports a longer walk as
    `Diverged`; its results are about walks that end within the bound. */
module ListingPages {
  import opened Wrappers
  import opened Pages

  /** A business as the listing pages show it. */
  datatype Business = Business(name: string, href: string)

  /** A heading the scraper reads has a link with an `href`. */
  predicate ListingOk(listing: Listing) {
    listing.heading.Some? ==>
      listing.heading.value.link.Some? && listing.heading.value.link.value.href.Some?
  }

  predicate ListingsOk(listings: seq<Listing>) {
    forall i :: 0 <= i < |listings| ==> ListingOk(listings[i])
  }

  /** A listing page the scraper can read without crashing: its headings
      have links, and its "Next" link, read only when the listings
      container is there, has an `href`. */
  predicate ListingPageOk(page: Page) {
    page.listings.Some? ==>
      && ListingsOk(page.listings.value)
      && (page.next.Some? ==> page.next.value.href.Some?)
  }

  /** The URL the walk moves to after a page with listings and a "Next"
      link. */
  function NextUrl(page: Page): string
    requires ListingPageOk(page) && page.listings.Some? && page.next.Some?
  {
    Absolute(page.next.value.href.value)
  }

  /** Every page the walk visits (within the bound) is readable. */
  predicate WalkOk(site: Site, url: string, maxPages: nat)
    decreases maxPages
  {
    || url == ""
    || maxPages == 0
    || url !in site
    || (&& ListingPageOk(site[url])
        && (site[url].listings.Some? && site[url].next.Some? ==>
              WalkOk(site, NextUrl(site[url]), maxPages - 1)))
  }

  function BusinessOf(heading: Heading): Business
    requires heading.link.Some? && heading.link.value.href.Some?
  {
    Business(Text(heading.link.value.caption), Absolute(heading.link.value.href.value))
  }

  /** What one listing contributes: nothing without a heading. */
  function FromListing(listing: Listing): seq<Business>
    requires ListingOk(listing)
  {
    match listing.heading
    case None => []
    case Some(h) => [BusinessOf(h)]
  }

  /** The businesses of one page, in listing order; no more of them than
      there are listings. */
  function PageBusinesses(listings: seq<Listing>): (r: seq<Business>)
    requires ListingsOk(listings)
    ensures |r| <= |listings|
  {
    if |listings| == 0 then []
    else
      var n := |listings| - 1;
      PageBusinesses(listings[..n]) + FromListing(listings[n])
  }

  /** A page's businesses are exactly those of its headed listings. */
  lemma {:induction false} PageBusinessesMembers(listings: seq<Listing>, b: Business)
    requires ListingsOk(listings)
    ensures b in PageBusinesses(listings) <==>
      exists i :: 0 <= i < |listings| && listings[i].heading.Some? && b == BusinessOf(listings[i].heading.value)
  {
    if |listings| > 0 {
      var n := |listings| - 1;
      PageBusinessesMembers(listings[..n], b);
      assert forall i :: 0 <= i < n ==> listings[..n][i] == listings[i];
    }
  }

  lemma PageBusinessesLast(listings: seq<Listing>)
    requires ListingsOk(listings) && |listings| > 0
    ensures PageBusinesses(listings)
         == PageBusinesses(listings[..|listings| - 1]) + FromListing(listings[|listings| - 1])
  {
  }

  /** Reading one more listing adds that listing's business, if any. */
  lemma PrefixStep(listings: seq<Listing>, i: nat)
    requires ListingsOk(listings) && i < |listings|
    ensures ListingsOk(listings[..i]) && ListingsOk(listings[..i + 1])
    ensures PageBusinesses(listings[..i + 1]) == PageBusinesses(listings[..i]) + FromListing(listings[i])
  {
    var prefix := listings[..i + 1];
    assert prefix[..i] == listings[..i] && prefix[i] == listings[i];
    PageBusinessesLast(prefix);
  }

  /** A single listing's page holds just that listing's business, if any. */
  lemma PageBusinessesSingle(listing: Listing)
    requires ListingOk(listing)
    ensures PageBusinesses([listing]) == FromListing(listing)
  {
    assert [listing][..0] == [];
  }

  /** Reading two runs of listings one after the other gives the first
      run's businesses followed by the second's. */
  lemma {:induction false} PageBusinessesAppend(a: seq<Listing>, b: seq<Listing>)
    requires ListingsOk(a) && ListingsOk(b)
    ensures ListingsOk(a + b)
    ensures PageBusinesses(a + b) == PageBusinesses(a) + PageBusinesses(b)
  {
    assert forall i :: 0 <= i < |a + b| ==> (a + b)[i] == if i < |a| then a[i] else b[i - |a|];
    if |b| == 0 {
      assert a + b == a;
    } else {
      var n := |b| - 1;
      PageBusinessesAppend(a, b[..n]);
      assert (a + b)[..|a + b| - 1] == a + b[..n];
      assert PageBusinesses(a + b) == PageBusinesses(a + b[..n]) + FromListing(b[n]);
    }
  }

  /** How a walk ends. */
  datatype Walk = Done(found: seq<Business>) | Failed | Diverged

  /** The walk from `url`, as a recursion over the pages. */
  function WalkFrom(site: Site, url: string, maxPages: nat): Walk
    requires WalkOk(site, url, maxPages)
    decreases maxPages
  {
    if url == "" then Done([])
    else if maxPages == 0 then Diverged
    else
      match Fetch(site, url)
      case None => Failed
      case Some(page) =>
        match page.listings
        case None => Done([])
        case Some(listings) =>
          var here := PageBusinesses(listings);
          if page.next.None? then Done(here)
          else
            match WalkFrom(site, NextUrl(page), maxPages - 1)
            case Done(rest) => Done(here + rest)
            case Failed => Failed
            case Diverged => Diverged
  }

  /** `get_businesses(url)`: the walk's businesses, the empty list after a
      failed fetch, and None for a walk longer than the bound. Stated
      against the pages the walk visits: a failed last request gives the
      empty list whatever earlier pages held; a walk whose every request
      succeeds gives the visited pages' businesses, page after page; and
      None comes only after `maxPages` fetched pages. */
  function Businesses(site: Site, url: string, maxPages: nat): (r: Option<seq<Business>>)
    requires WalkOk(site, url, maxPages)
    ensures r.None? <==> WalkFrom(site, url, maxPages).Diverged?
    ensures WalkFrom(site, url, maxPages).Failed? ==> r == Some([])
    ensures r.Some? && r.value != [] ==> WalkFrom(site, url, maxPages) == Done(r.value)
    ensures WalkFrom(site, url, maxPages).Done? ==> r == Some(WalkFrom(site, url, maxPages).found)
    ensures var v := Visits(site, url, maxPages);
      |v| > 0 && v[|v| - 1] !in site ==> r == Some([])
    ensures var v := Visits(site, url, maxPages);
      r.Some? && (forall i :: 0 <= i < |v| ==> v[i] in site) ==> r == Some(ConcatContributions(site, v))
    ensures var v := Visits(site, url, maxPages);
      r.None? ==> |v| == maxPages && forall i :: 0 <= i < |v| ==> v[i] in site
  {
    WalkIsConcatenation(site, url, maxPages);
    match WalkFrom(site, url, maxPages)
    case Done(found) => Some(found)
    case Failed => Some([])
    case Diverged =>
      DivergedVisits(site, url, maxPages);
      None
  }

  // ---------------------------------------------------------------------
  // The pages a walk visits, as an independent account of the result.

  /** The URLs the walk requests, in order: it stops after a failed fetch,
      a page without listings, or a page without a "Next" link. */
  function Visits(site: Site, url: string, maxPages: nat): (r: seq<string>)
    requires WalkOk(site, url, maxPages)
    ensures |r| <= maxPages
    ensures forall i :: 0 <= i < |r| && r[i] in site ==> ListingPageOk(site[r[i]])
    decreases maxPages
  {
    if url == "" || maxPages == 0 then []
    else if url !in site || site[url].listings.None? || site[url].next.None? then [url]
    else [url] + Visits(site, NextUrl(site[url]), maxPages - 1)
  }

  /** What a fetched page contributes: its listings' businesses, or nothing
      without a listings container. */
  function Contribution(site: Site, url: string): seq<Business>
    requires url in site ==> ListingPageOk(site[url])
  {
    if url in site && site[url].listings.Some? then PageBusinesses(site[url].listings.value) else []
  }

  function ConcatContributions(site: Site, urls: seq<string>): seq<Business>
    requires forall i :: 0 <= i < |urls| && urls[i] in site ==> ListingPageOk(site[urls[i]])
  {
    if |urls| == 0 then [] else Contribution(site, urls[0]) + ConcatContributions(site, urls[1..])
  }

  /** A walk fails exactly when the last URL it requests cannot be fetched;
      a walk that completes returns, in order, the concatenation of the
      contributions of the pages it visited, every one of them fetched. */
  lemma {:induction false} WalkIsConcatenation(site: Site, url: string, maxPages: nat)
    requires WalkOk(site, url, maxPages)
    ensures var v := Visits(site, url, maxPages);
      && (WalkFrom(site, url, maxPages).Failed? <==> |v| > 0 && v[|v| - 1] !in site)
      && (WalkFrom(site, url, maxPages).Done? ==>
            && (forall i :: 0 <= i < |v| ==> v[i] in site)
            && WalkFrom(site, url, maxPages).found == ConcatContributions(site, v))
    decreases maxPages
  {
    var v := Visits(site, url, maxPages);
    if url == "" || maxPages == 0 {
    } else if url !in site || site[url].listings.None? || site[url].next.None? {
      assert v == [url];
      assert ConcatContributions(site, v) == Contribution(site, url) + ConcatContributions(site, []);
    } else {
      var next := NextUrl(site[url]);
      WalkIsConcatenation(site, next, maxPages - 1);
      var w := Visits(site, next, maxPages - 1);
      assert v == [url] + w;
      assert v[1..] == w;
      if |w| > 0 {
        assert v[|v| - 1] == w[|w| - 1];
      }
      if WalkFrom(site, url, maxPages).Done? {
        assert ConcatContributions(site, v) == Contribution(site, url) + ConcatContributions(site, w);
      }
    }
  }

  /** A walk that hits the bound has fetched `maxPages` pages, every one
      with listings and a "Next" link. */
  lemma {:induction false} DivergedVisits(site: Site, url: string, maxPages: nat)
    requires WalkOk(site, url, maxPages)
    requires WalkFrom(site, url, maxPages).Diverged?
    ensures var v := Visits(site, url, maxPages);
      |v| == maxPages && forall i :: 0 <= i < |v| ==> v[i] in site
    decreases maxPages
  {
    if maxPages > 0 {
      var next := NextUrl(site[url]);
      DivergedVisits(site, next, maxPages - 1);
      var w := Visits(site, next, maxPages - 1);
      assert Visits(site, url, maxPages) == [url] + w;
    }
  }

  /** Once the bound exceeds the number of pages of the site, a walk that
      hits it has visited some page twice. The code's loop depends on
      nothing but the current URL, so from there on it repeats itself and
      never ends. */
  lemma DivergedRevisits(site: Site, url: string, maxPages: nat)
    requires WalkOk(site, url, maxPages)
    requires maxPages > |site.Keys|
    requires WalkFrom(site, url, maxPages).Diverged?
    ensures var v := Visits(site, url, maxPages);
      exists i, j :: 0 <= i < j < |v| && v[i] == v[j]
  {
    var v := Visits(site, url, maxPages);
    DivergedVisits(site, url, maxPages);
    if forall i, j :: 0 <= i < j < |v| ==> v[i] != v[j] {
      DistinctCount(v);
      SubsetCount(set i | 0 <= i < |v| :: v[i], site.Keys);
      assert false;
    }
  }

  /** A list without repeats has as many distinct elements as entries. */
  lemma {:induction false} DistinctCount(v: seq<string>)
    requires forall i, j :: 0 <= i < j < |v| ==> v[i] != v[j]
    ensures |set i | 0 <= i < |v| :: v[i]| == |v|
  {
    if |v| > 0 {
      var n := |v| - 1;
      DistinctCount(v[..n]);
      var front := set i | 0 <= i < n :: v[..n][i];
      assert (set i | 0 <= i < |v| :: v[i]) == front + {v[n]};
      assert v[n] !in front;
    }
  }

  lemma {:induction false} SubsetCount(a: set<string>, b: set<string>)
    requires a <= b
    ensures |a| <= |b|
    decreases a
  {
    if a != {} {
      var x :| x in a;
      SubsetCount(a - {x}, b - {x});
    }
  }

  /** The all-or-nothing failure path: once the last requested page cannot
      be fetched, the result is the empty list, whatever earlier pages
      held. */
  lemma FailureDiscardsAll(site: Site, url: string, maxPages: nat)
    requires WalkOk(site, url, maxPages)
    requires var v := Visits(site, url, maxPages); |v| > 0 && v[|v| - 1] !in site
    ensures Businesses(site, url, maxPages) == Some([])
  {
    WalkIsConcatenation(site, url, maxPages);
  }

  /** More pages allowed never changes the outcome of a walk that already
      ended within fewer. */
  lemma {:induction false} MoreRoomSameOutcome(site: Site, url: string, fewer: nat, more: nat)
    requires fewer <= more
    requires WalkOk(site, url, fewer)
    requires !WalkFrom(site, url, fewer).Diverged?
    ensures WalkOk(site, url, more)
    ensures WalkFrom(site, url, more) == WalkFrom(site, url, fewer)
    decreases fewer
  {
    if url != "" && url in site && site[url].listings.Some? && site[url].next.Some? {
      MoreRoomSameOutcome(site, NextUrl(site[url]), fewer - 1, more - 1);
    }
  }

  /** Every business link the walk records is absolute. */
  lemma {:induction false} BusinessHrefs(site: Site, url: string, maxPages: nat)
    requires WalkOk(site, url, maxPages)
    ensures WalkFrom(site, url, maxPages).Done? ==>
      forall b :: b in WalkFrom(site, url, maxPages).found ==> IsAbsolute(b.href)
    decreases maxPages
  {
    if url != "" && maxPages > 0 && url in site && site[url].listings.Some? {
      var listings := site[url].listings.value;
      forall b | b in PageBusinesses(listings) ensures IsAbsolute(b.href) {
        PageBusinessesMembers(listings, b);
        var i :| 0 <= i < |listings| && listings[i].heading.Some? && b == BusinessOf(listings[i].heading.value);
        RelativeAbsolute(listings[i].heading.value.link.value.href.value);
      }
      if site[url].next.Some? {
        BusinessHrefs(site, NextUrl(site[url]), maxPages - 1);
      }
    }
  }

  // ---------------------------------------------------------------------
  // The loops of `get_businesses` as written.

  /** The walk's result once `acc` has been gathered in front of it. */
  function Resume(acc: seq<Business>, rest: Walk): Walk
  {
    match rest
    case Done(found) => Done(acc + found)
    case Failed => Failed
    case Diverged => Diverged
  }

  /** One step of the walk on a fetched page with listings: that page's
      businesses, then whatever the rest of the walk yields. */
  lemma WalkStep(site: Site, url: string, maxPages: nat)
    requires WalkOk(site, url, maxPages)
    requires url != "" && maxPages > 0 && url in site && site[url].listings.Some?
    ensures var page := site[url];
      WalkFrom(site, url, maxPages)
      == Resume(PageBusinesses(page.listings.value),
                if page.next.Some? then WalkFrom(site, NextUrl(page), maxPages - 1) else Done([]))
  {
    var page := site[url];
    assert PageBusinesses(page.listings.value) + [] == PageBusinesses(page.listings.value);
  }

  lemma ResumeTwice(a: seq<Business>, b: seq<Business>, w: Walk)
    ensures Resume(a, Resume(b, w)) == Resume(a + b, w)
  {
    if w.Done? {
      assert a + (b + w.found) == (a + b) + w.found;
    }
  }

  /** The inner loop: append, in order, one business per listing that has
      a heading. */
  method CollectPage(acc: seq<Business>, listings: seq<Listing>) returns (out: seq<Business>)
    requires ListingsOk(listings)
    ensures out == acc + PageBusinesses(listings)
  {
    out := acc;
    var i := 0;
    while i < |listings|
      invariant 0 <= i <= |listings|
      invariant out == acc + PageBusinesses(listings[..i])
    {
      var listing := listings[i];
      PrefixStep(listings, i);
      if listing.heading.Some? {
        out := out + [BusinessOf(listing.heading.value)];
      }
      i := i + 1;
    }
    assert listings[..i] == listings;
  }

  /** The outer loop: fetch, collect, follow "Next" or stop; a failed fetch
      returns the empty list. `finished` is false when the bound is hit. */
  method GetBusinesses(site: Site, start: string, maxPages: nat)
      returns (list: seq<Business>, finished: bool)
    requires WalkOk(site, start, maxPages)
    ensures finished <==> Businesses(site, start, maxPages).Some?
    ensures finished ==> Businesses(site, start, maxPages) == Some(list)
  {
    var acc: seq<Business> := [];
    var url := start;
    var fuel := maxPages;
    while url != ""
      invariant WalkOk(site, url, fuel)
      invariant Resume(acc, WalkFrom(site, url, fuel)) == WalkFrom(site, start, maxPages)
      decreases fuel
    {
      if fuel == 0 {
        assert WalkFrom(site, start, maxPages) == Diverged;
        return [], false;
      }
      if url !in site {
        assert WalkFrom(site, start, maxPages) == Failed;
        return [], true;
      }
      var page := site[url];
      if page.listings.None? {
        url := "";
      } else {
        WalkStep(site, url, fuel);
        ResumeTwice(acc, PageBusinesses(page.listings.value),
          if page.next.Some? then WalkFrom(site, NextUrl(page), fuel - 1) else Done([]));
        acc := CollectPage(acc, page.listings.value);
        if page.next.Some? {
          url := NextUrl(page);
        } else {
          url := "";
        }
      }
      fuel := fuel - 1;
    }
    assert acc + [] == acc;
    assert WalkFrom(site, start, maxPages) == Done(acc);
    return acc, true;
  }

  // ---------------------------------------------------------------------
  // A three-page subcategory with 2 + 2 + 1 headed listings.

  /** A listing whose heading links to a business. */
  function Headed(link: Anchor): Listing
  {
    Listing(Some(Heading(Some(link))))
  }

  /** A "Next" link to `href`. */
  function Linked(href: string): Option<Anchor>
  {
    Some(Anchor(Node(["Next"]), Some(href)))
  }

  /** Page one lists h[0], h[1] and links to page two; page two lists
      h[2], a listing without a heading, and h[3], and links to page three;
      page three lists h[4] and has no "Next" link. */
  function FixtureSite(start: string, p2: string, p3: string, h: seq<Anchor>): Site
    requires |h| == 5
  {
    map[start := Page([], None, Some([Headed(h[0]), Headed(h[1])]), Linked(p2), None),
        Absolute(p2) := Page([], None, Some([Headed(h[2]), Listing(None), Headed(h[3])]), Linked(p3), None),
        Absolute(p3) := Page([], None, Some([Headed(h[4])]), None, None)]
  }

  /** A fixture's links all carry an `href` and its three URLs differ. */
  predicate FixtureOk(start: string, p2: string, p3: string, h: seq<Anchor>) {
    && |h| == 5
    && (forall i :: 0 <= i < 5 ==> h[i].href.Some?)
    && start != "" && start != Absolute(p2) && start != Absolute(p3) && p2 != p3
  }

  function Entry(link: Anchor): Business
    requires link.href.Some?
  {
    BusinessOf(Heading(Some(link)))
  }

  /** Two headed listings give their two businesses, in order. */
  lemma TwoHeaded(a: Anchor, b: Anchor)
    requires a.href.Some? && b.href.Some?
    ensures ListingsOk([Headed(a), Headed(b)])
    ensures PageBusinesses([Headed(a), Headed(b)]) == [Entry(a), Entry(b)]
  {
    PageBusinessesSingle(Headed(a));
    PageBusinessesSingle(Headed(b));
    PageBusinessesAppend([Headed(a)], [Headed(b)]);
    assert [Headed(a)] + [Headed(b)] == [Headed(a), Headed(b)];
  }

  /** A listing without a heading between two headed ones is skipped. */
  lemma HeadlessSkipped(a: Anchor, b: Anchor)
    requires a.href.Some? && b.href.Some?
    ensures ListingsOk([Headed(a), Listing(None), Headed(b)])
    ensures PageBusinesses([Headed(a), Listing(None), Headed(b)]) == [Entry(a), Entry(b)]
  {
    var x, u, y := Headed(a), Listing(None), Headed(b);
    PageBusinessesSingle(x);
    PageBusinessesSingle(u);
    PageBusinessesAppend([x], [u]);
    assert [x] + [u] == [x, u];
    assert PageBusinesses([x, u]) == [Entry(a)];
    PageBusinessesLast([x, u, y]);
    assert [x, u, y][..2] == [x, u];
  }

  /** The walk from page two: page two's businesses, then page three's. */
  lemma LastTwoPages(start: string, p2: string, p3: string, h: seq<Anchor>)
    requires FixtureOk(start, p2, p3, h)
    ensures WalkOk(FixtureSite(start, p2, p3, h), Absolute(p2), 2)
    ensures WalkFrom(FixtureSite(start, p2, p3, h), Absolute(p2), 2) == Done([Entry(h[2]), Entry(h[3]), Entry(h[4])])
  {
    var site := FixtureSite(start, p2, p3, h);
    var u2, u3 := Absolute(p2), Absolute(p3);
    AbsoluteInjective(p2, p3);
    HeadlessSkipped(h[2], h[3]);
    PageBusinessesSingle(Headed(h[4]));
    assert site[u2].listings == Some([Headed(h[2]), Listing(None), Headed(h[3])]);
    assert site[u3].listings == Some([Headed(h[4])]) && site[u3].next.None?;
    assert WalkOk(site, u3, 1);
    WalkStep(site, u3, 1);
    assert NextUrl(site[u2]) == u3;
    WalkStep(site, u2, 2);
    assert [Entry(h[2]), Entry(h[3])] + [Entry(h[4])] == [Entry(h[2]), Entry(h[3]), Entry(h[4])];
  }

  /** Three pages holding 2, 2 and 1 headed listings (and one listing
      without a heading) give five businesses, in page-then-listing order. */
  lemma ThreePages(start: string, p2: string, p3: string, h: seq<Anchor>)
    requires FixtureOk(start, p2, p3, h)
    ensures WalkOk(FixtureSite(start, p2, p3, h), start, 3)
    ensures Businesses(FixtureSite(start, p2, p3, h), start, 3)
         == Some([Entry(h[0]), Entry(h[1]), Entry(h[2]), Entry(h[3]), Entry(h[4])])
  {
    var site := FixtureSite(start, p2, p3, h);
    LastTwoPages(start, p2, p3, h);
    TwoHeaded(h[0], h[1]);
    assert site[start].listings == Some([Headed(h[0]), Headed(h[1])]);
    assert NextUrl(site[start]) == Absolute(p2);
    assert WalkOk(site, start, 3);
    WalkStep(site, start, 3);
    assert [Entry(h[0]), Entry(h[1])] + [Entry(h[2]), Entry(h[3]), Entry(h[4])]
        == [Entry(h[0]), Entry(h[1]), Entry(h[2]), Entry(h[3]), Entry(h[4])];
  }
}

=== FILE: pages.dfy ===
/** Already-parsed pages of the directory site, reduced to exactly the
    structures the scraper queries, and the site itself as a map from URL to
    page. HTML parsing and HTTP are outside the model: a URL that is not in
    the map is one whose request raised `RequestException` (transport error
    or non-success status). */
module Pages {
  import opened Wrappers
  import opened Strings

  /** The site's origin, prefixed to every relative `href` the scraper follows
      or records. */
  const Domain: string := "https://www.2merkato.com"

  /** An element, seen through its text: the text fragments below it, in
      document order. */
  datatype Node = Node(fragments: seq<string>)

  /** An `a` element: its text and its `href` attribute, if it has one. */
  datatype Anchor = Anchor(caption: Node, href: Option<string>)

  /** A `div.row-fluid.mtree_category` block of the directory page: all its
      `a` elements and all its `span.count` badges, each in document order. */
  datatype CategoryBlock = CategoryBlock(links: seq<Anchor>, badges: seq<Node>)

  /** An `li` of the subcategory list: its first `a` and first `span.count`. */
  datatype ListItem = ListItem(link: Option<Anchor>, badge: Option<Node>)

  /** The first `div.row-fluid.mtree_sub_category` of a category page and
      the items of the first `ul.pad10` inside it, if there is one. */
  datatype SubcategoryBox = SubcategoryBox(list: Option<seq<ListItem>>)

  /** An `h4` of a listing, with its first `a`. */
  datatype Heading = Heading(link: Option<Anchor>)

  /** A `div.span12.heading` of the listings, with its first `h4`. */
  datatype Listing = Listing(heading: Option<Heading>)

  /** One page as the scraper sees it. `listings` is the content of the
      `div#listings` container, `next` the first `a` titled "Next", and
      `detailsTable` the rows of the first `table.table-condensed`, each
      row given by its `td` cells. */
  datatype Page = Page(
    categoryBlocks: seq<CategoryBlock>,
    subcategoryBox: Option<SubcategoryBox>,
    listings: Option<seq<Listing>>,
    next: Option<Anchor>,
    detailsTable: Option<seq<seq<Node>>>)

  type Site = map<string, Page>

  /** A GET of `url`: the page, or None when the request fails. */
  function Fetch(site: Site, url: string): (r: Option<Page>)
    ensures r.Some? <==> url in site
    ensures r.Some? ==> r.value == site[url]
  {
    if url in site then Some(site[url]) else None
  }

  /** BeautifulSoup's `get_text(strip=True)`: every fragment stripped, then
      all of them joined with no separator. The result never starts or ends
      with whitespace, however many fragments the element holds. */
  function Text(n: Node): (r: string)
    ensures Trimmed(r)
  {
    JoinStrippedTrimmed(n.fragments);
    JoinStripped(n.fragments)
  }

  function JoinStripped(fragments: seq<string>): string
  {
    if |fragments| == 0 then ""
    else Strip(fragments[0]) + JoinStripped(fragments[1..])
  }

  lemma {:induction false} JoinStrippedTrimmed(fragments: seq<string>)
    ensures Trimmed(JoinStripped(fragments))
  {
    if |fragments| > 0 {
      StripShape(fragments[0]);
      JoinStrippedTrimmed(fragments[1..]);
      ConcatTrimmed(Strip(fragments[0]), JoinStripped(fragments[1..]));
    }
  }

  /** Two trimmed texts joined with no separator are trimmed. */
  lemma ConcatTrimmed(a: string, b: string)
    requires Trimmed(a) && Trimmed(b)
    ensures Trimmed(a + b)
  {
    if |a| > 0 && |b| > 0 {
      assert (a + b)[0] == a[0] && (a + b)[|a + b| - 1] == b[|b| - 1];
    } else if |a| == 0 {
      assert a + b == b;
    } else {
      assert a + b == a;
    }
  }

  /** The text of a run of fragments followed by another is the text of
      the first run followed by that of the second. */
  lemma {:induction false} JoinStrippedAppend(a: seq<string>, b: seq<string>)
    ensures JoinStripped(a + b) == JoinStripped(a) + JoinStripped(b)
  {
    if |a| == 0 {
      assert a + b == b;
    } else {
      assert (a + b)[0] == a[0] && (a + b)[1..] == a[1..] + b;
      JoinStrippedAppend(a[1..], b);
    }
  }

  /** A one-fragment element's text is that fragment, stripped. */
  lemma TextSingle(s: string)
    ensures Text(Node([s])) == Strip(s)
  {
    assert [s][1..] == [];
    assert JoinStripped([s]) == Strip(s) + JoinStripped([]);
  }

  /** `DOMAIN + href`. */
  function Absolute(raw: string): string
  {
    Domain + raw
  }

  predicate IsAbsolute(url: string) {
    |url| >= |Domain| && url[..|Domain|] == Domain
  }

  /** The raw `href` an absolute URL was made from. */
  function Relative(url: string): Option<string>
  {
    if IsAbsolute(url) then Some(url[|Domain|..]) else None
  }

  /** Prefixing is undone by `Relative`, so two distinct raw `href`s never
      yield the same URL. */
  lemma RelativeAbsolute(raw: string)
    ensures IsAbsolute(Absolute(raw)) && Absolute(raw) != ""
    ensures Relative(Absolute(raw)) == Some(raw)
  {
    assert Absolute(raw)[..|Domain|] == Domain;
    assert Absolute(raw)[|Domain|..] == raw;
  }

  lemma AbsoluteInjective(a: string, b: string)
    ensures Absolute(a) == Absolute(b) ==> a == b
  {
    RelativeAbsolute(a);
    RelativeAbsolute(b);
  }

  /** A category or subcategory as the scraper records it: name, absolute
      link, and the count badge text without its bounding characters. */
  datatype Shell = Shell(name: string, href: string, count: string)

  /** The record built from one link and the count badge paired with it. */
  function ShellOf(link: Anchor, badge: Node): Shell
    requires link.href.Some?
  {
    Shell(Text(link.caption), Absolute(link.href.value), Unbracket(Text(badge)))
  }

  /** Every record's link is the site's origin followed by the raw `href`,
      and its count is the badge text less one character at each end. */
  lemma ShellFields(link: Anchor, badge: Node)
    requires link.href.Some?
    ensures IsAbsolute(ShellOf(link, badge).href)
    ensures Relative(ShellOf(link, badge).href) == link.href
    ensures ShellOf(link, badge).name == Text(link.caption)
    ensures ShellOf(link, badge).count == Unbracket(Text(badge))
  {
    RelativeAbsolute(link.href.value);
  }
}

=== FILE: strings.dfy ===
/** The string rules the scraper relies on: Python's `str.strip()` (which
    BeautifulSoup's `get_text(strip=True)` applies to every text fragment)
    and Python's slice `t[1:-1]` that turns a count badge such as "(42)"
    into "42". */
module Strings {

  /** Python's `str.isspace` for one character, by code point. */
  predicate IsSpace(c: char) {
    var n := c as int;
    || (9 <= n <= 13)
    || (28 <= n <= 32)
    || n == 0x85
    || n == 0xA0
    || n == 0x1680
    || (0x2000 <= n <= 0x200A)
    || n == 0x2028
    || n == 0x2029
    || n == 0x202F
    || n == 0x205F
    || n == 0x3000
  }

  predicate AllSpace(s: string) {
    forall i :: 0 <= i < |s| ==> IsSpace(s[i])
  }

  /** Neither starts nor ends with whitespace. */
  predicate Trimmed(s: string) {
    |s| == 0 || (!IsSpace(s[0]) && !IsSpace(s[|s| - 1]))
  }

  /** Python's `str.lstrip()`. */
  function TrimStart(s: string): (r: string)
    ensures |r| <= |s|
  {
    if |s| > 0 && IsSpace(s[0]) then TrimStart(s[1..]) else s
  }

  /** Python's `str.rstrip()`. */
  function TrimEnd(s: string): (r: string)
    ensures |r| <= |s|
  {
    if |s| > 0 && IsSpace(s[|s| - 1]) then TrimEnd(s[..|s| - 1]) else s
  }

  /** Python's `str.strip()`. */
  function Strip(s: string): string
  {
    TrimEnd(TrimStart(s))
  }

  /** What `lstrip` removes is whitespace, and what it keeps is a suffix
      that does not start with whitespace. */
  lemma {:induction false} TrimStartShape(s: string)
    ensures |TrimStart(s)| <= |s| && TrimStart(s) == s[|s| - |TrimStart(s)|..]
    ensures AllSpace(s[..|s| - |TrimStart(s)|])
    ensures |TrimStart(s)| == 0 || !IsSpace(TrimStart(s)[0])
    decreases |s|
  {
    if |s| > 0 && IsSpace(s[0]) {
      var r := TrimStart(s[1..]);
      TrimStartShape(s[1..]);
      assert s[..|s| - |r|] == [s[0]] + s[1..][..|s| - 1 - |r|];
    }
  }

  /** What `rstrip` removes is whitespace, and what it keeps is a prefix
      that does not end with whitespace. */
  lemma {:induction false} TrimEndShape(s: string)
    ensures |TrimEnd(s)| <= |s| && TrimEnd(s) == s[..|TrimEnd(s)|]
    ensures AllSpace(s[|TrimEnd(s)|..])
    ensures |TrimEnd(s)| == 0 || !IsSpace(TrimEnd(s)[|TrimEnd(s)| - 1])
    decreases |s|
  {
    if |s| > 0 && IsSpace(s[|s| - 1]) {
      var r := TrimEnd(s[..|s| - 1]);
      TrimEndShape(s[..|s| - 1]);
      assert s[|r|..] == s[..|s| - 1][|r|..] + [s[|s| - 1]];
    }
  }

  /** Number of whitespace characters `str.strip()` removes at the front. */
  function LeadingSpace(s: string): nat
  {
    |s| - |TrimStart(s)|
  }

  /** The stripped text is trimmed, and the input is that text with only
      whitespace before and after it. */
  lemma StripShape(s: string)
    ensures Trimmed(Strip(s))
    ensures LeadingSpace(s) + |Strip(s)| <= |s|
    ensures Strip(s) == s[LeadingSpace(s)..LeadingSpace(s) + |Strip(s)|]
    ensures AllSpace(s[..LeadingSpace(s)])
    ensures AllSpace(s[LeadingSpace(s) + |Strip(s)|..])
  {
    var t := TrimStart(s);
    var r := Strip(s);
    var k := LeadingSpace(s);
    TrimStartShape(s);
    TrimEndShape(t);
    assert t == s[k..];
    assert r == t[..|r|];
    assert s[k + |r|..] == t[|r|..];
  }

  /** Stripping is determined by the decomposition: whatever whitespace
      surrounds a trimmed core, stripping yields exactly that core. */
  lemma {:induction false} StripUnique(lead: string, core: string, trail: string)
    requires AllSpace(lead) && AllSpace(trail) && Trimmed(core)
    ensures Strip(lead + core + trail) == core
  {
    var s := lead + core + trail;
    if |core| == 0 {
      assert s == (lead + trail) + "";
      assert AllSpace(lead + trail);
      StartOfDecomposition(lead + trail, "");
    } else {
      assert s == lead + (core + trail);
      StartOfDecomposition(lead, core + trail);
      EndOfDecomposition(core, trail);
    }
  }

  lemma {:induction false} StartOfDecomposition(lead: string, rest: string)
    requires AllSpace(lead)
    requires |rest| == 0 || !IsSpace(rest[0])
    ensures TrimStart(lead + rest) == rest
    decreases |lead|
  {
    if |lead| > 0 {
      assert (lead + rest)[1..] == lead[1..] + rest;
      StartOfDecomposition(lead[1..], rest);
    } else {
      assert lead + rest == rest;
    }
  }

  lemma {:induction false} EndOfDecomposition(core: string, trail: string)
    requires AllSpace(trail)
    requires |core| == 0 || !IsSpace(core[|core| - 1])
    ensures TrimEnd(core + trail) == core
    decreases |trail|
  {
    if |trail| > 0 {
      assert (core + trail)[..|core + trail| - 1] == core + trail[..|trail| - 1];
      EndOfDecomposition(core, trail[..|trail| - 1]);
    } else {
      assert core + trail == core;
    }
  }

  /** Stripping twice is stripping once. */
  lemma StripIdempotent(s: string)
    ensures Strip(Strip(s)) == Strip(s)
  {
    StripShape(s);
    StripUnique("", Strip(s), "");
    assert "" + Strip(s) + "" == Strip(s);
  }

  /** How Python resolves one bound of a slice `s[i:j]` of a sequence of
      length n: a negative bound counts from the end, and the result is
      clamped into [0, n]. */
  function SliceBound(i: int, n: nat): (k: nat)
    ensures k <= n
  {
    if i < 0 then (if i + n < 0 then 0 else i + n)
    else if i > n then n
    else i
  }

  /** Python's `s[start:stop]` (step 1): empty when the resolved bounds
      cross. */
  function PySlice(s: string, start: int, stop: int): string
  {
    var a := SliceBound(start, |s|);
    var b := SliceBound(stop, |s|);
    if a < b then s[a..b] else []
  }

  /** `t[1:-1]`, applied to a count badge's text. */
  function Unbracket(t: string): string
  {
    PySlice(t, 1, -1)
  }

  /** One character is removed at each end, and nothing at all is left of
      a text of length two or less. */
  lemma UnbracketShape(t: string)
    ensures |Unbracket(t)| == if |t| <= 2 then 0 else |t| - 2
    ensures forall i :: 0 <= i < |Unbracket(t)| ==> Unbracket(t)[i] == t[i + 1]
  {
  }

  /** Unbracketing undoes wrapping in any pair of bounding characters. */
  lemma UnbracketWrapped(open: char, x: string, close: char)
    ensures Unbracket([open] + x + [close]) == x
  {
    var r := Unbracket([open] + x + [close]);
    UnbracketShape([open] + x + [close]);
    assert |r| == |x|;
    assert forall i :: 0 <= i < |r| ==> r[i] == x[i];
  }

  /** The badge "(42)" yields the count "42". */
  lemma UnbracketExample()
    ensures Unbracket("(42)") == "42"
  {
    UnbracketWrapped('(', "42", ')');
    assert "(42)" == ['('] + "42" + [')'];
  }
}

=== FILE: wrappers.dfy ===
/** The Some/None datatype used for values that may be absent: a page that
    could not be fetched, an element a page does not contain, a run that did
    not finish within its page bound. */
module Wrappers {

  datatype Option<+T> = None | Some(value: T)
}
